=== FILE: README.md ===
# cursor-clip core, modelled in Dafny

cursor-clip is a clipboard-history daemon for Wayland compositors. It has
three parts that this project models:

- A background process watches the compositor-wide selection through the
  wlr data-control protocol.
- It keeps the last 100 copied payloads. Each payload holds every offered MIME type that is not a video type and whose read came back non-empty.
- It can put any of those payloads back on the clipboard by taking
  ownership of the selection itself.

A UI client talks to it over a line-oriented local socket. It asks for the
history, asks to re-publish an item by id, or clears the history. Every
connected client is pushed a `NewItem` notification when something new is
copied. The overlay window lists the previews and navigates them from the
keyboard.

The model is functional. There is one immutable state record
(`BackendState.State`), and every operation is a pure function over it.

- **Wayland objects** (offers, sources, the manager, the device, the queue
  and the connection) are natural-number handles. The daemon allocates a
  fresh handle for each data source it creates.
- **Protocol requests** an operation would send are returned as a list:
  create, offer, set-selection, destroy, flush.
- **Pipe reads** of an offer's payload are an oracle `PipeRead`. It gives
  the outcome of the read for each position of the announced MIME list, as
  `Option<bytes>`. None stands for a pipe or read failure. A MIME type
  announced twice is read twice, and the two reads may differ.
- **Notifications** handed to the broadcast hub are appended to an `outbox`.
- **The wall clock** is a parameter `now`.
- **Strings** are sequences of Unicode scalar values. `str::len` (a UTF-8
  byte count) and `std::str::from_utf8` are modelled by an explicit UTF-8
  encoder and decoder (module `Utf8`). The two are proved mutually inverse.
- **`IndexMap`** is a sequence of key/value pairs with unique keys, in
  insertion order (module `IndexMaps`).

Modules follow the source files:

| module | file |
|---|---|
| `DataStructures` | `src/shared/data_structures.rs` |
| `BackendState` | `src/backend/backend_state.rs` |
| `WaylandClipboard` | `src/backend/wayland_clipboard.rs` |
| `IpcServer` | `src/backend/ipc_server.rs` |
| `GtkOverlay` | `src/frontend/gtk_overlay.rs` |

`Wrappers`, `Strings`, `Utf8`, `IndexMaps` and `Seqs` are support modules.

A state invariant `BackendState.Valid` is proved to hold across every handler and request. It says:

- the history holds at most 100 items;
- ids strictly decrease from newest to oldest, and all are below the id counter;
- every payload is non-empty and has unique MIME keys;
- the suppress flag is set exactly while the daemon holds a source of its own.

Two behaviours of the selection handlers are stated as the code has them:

- A `Cancelled` event for the current source leaves the recorded entry id
  in place (`src/backend/wayland_clipboard.rs:244-247`). Only the suppress
  flag and the current source are cleared. `WaylandClipboard.OnCancelled`
  and `WaylandClipboard.PublishThenCancel` state that the entry id survives.
- A `Send` event is served from the recorded entry id, whatever source it is
  addressed to (`src/backend/wayland_clipboard.rs:216-222`). The handler
  never compares the event's source with the current one.
  `WaylandClipboard.OnSend` states this for every source handle.

Two more behaviours that may surprise a reader are kept as written:

- Between 30 and 59 seconds old, an item is labelled "0 minutes ago"
  (`GtkOverlay.ZeroMinutesWindow`).
- A selection that arrives while the daemon's own publish is pending is
  recorded and destroyed unread. The offer table is not cleared in that case
  (`WaylandClipboard.OnSelection`).

## Model

| member | source | states |
|---|---|---|
| `DataStructures.ToPreview` | src/shared/data_structures.rs:23-32 | the preview together with the item's payload rebuilds the item |
| `DataStructures.ToPreviewForgetsOnlyPayload` | src/shared/data_structures.rs:23-32 | two items have the same preview exactly when they agree on id, preview text, type and timestamp: the projection drops the MIME data and nothing else |
| `DataStructures.AsStr` | src/shared/data_structures.rs:94-105 | each type's label is non-empty and reads back as that type, so the label is the variant's own name |
| `DataStructures.AsStrInjective` | src/shared/data_structures.rs:94-105 | two types have the same label if and only if they are the same type |
| `DataStructures.TypeFromPreview` | src/shared/data_structures.rs:78-91 | the classifier answers each of Url, Code, File, Password and Text exactly when that rule holds and every earlier rule fails. The rules are stated over substring occurrence and UTF-8 byte length (under 256 for File; non-empty, under 50, no space and a special character for Password) |
| `DataStructures.UrlPrefixWins` | src/shared/data_structures.rs:80-81 | any text starting with `http://` or `https://` is a Url whatever follows |
| `DataStructures.TypeFromPreviewRange` | src/shared/data_structures.rs:78-91 | the classifier never answers Image or Other; a Password never contains '/' and is under 50 bytes |
| `DataStructures.NoSpaceNotCode` | src/shared/data_structures.rs:82-83 | text without a space never contains a code marker, since each marker ends in a space |
| `DataStructures.ExampleUrl` | src/shared/data_structures.rs:80-81 | `https://example.com` is classified Url |
| `DataStructures.ExampleCode` | src/shared/data_structures.rs:82-83 | `impl Foo for Bar {}` is classified Code |
| `DataStructures.ExampleFile` | src/shared/data_structures.rs:84-85 | `/etc/passwd` is classified File |
| `DataStructures.ExamplePassword` | src/shared/data_structures.rs:86-87 | `Xk7!mP9q` is classified Password |
| `DataStructures.ExampleText` | src/shared/data_structures.rs:88-90 | `just some words` falls through every rule to Text |
| `Strings.ContainsIff` | src/shared/data_structures.rs:82 | the substring scan used for `str::contains` holds exactly when the needle occurs at some position |
| `Utf8.ByteLenIsEncodedLength` | src/shared/data_structures.rs:84-86 | the byte length used by the classifier is the length of the string's UTF-8 encoding |
| `Utf8.DecodeEncode` | src/backend/backend_state.rs:86-87 | decoding the UTF-8 encoding of any string gives that string back |
| `Utf8.EncodeDecode` | src/backend/backend_state.rs:86-88 | bytes the decoder accepts are exactly the encoding of the string it returns |
| `IndexMaps.Get` | src/backend/backend_state.rs:81 | a lookup finds a value exactly when the key is present, and then it is the value stored under that key |
| `IndexMaps.InsertGet` | src/backend/wayland_clipboard.rs:317 | after an insert the key maps to the new value and every other key to what it mapped to before |
| `IndexMaps.InsertKeys` | src/backend/wayland_clipboard.rs:317 | inserting a present key keeps the key order; a new key is appended at the end |
| `BackendState.New` | src/backend/backend_state.rs:59-75 | a fresh state has an empty history, next id 1, no offer, no source, no entry id, suppress and monitor-only off, and satisfies the invariant |
| `BackendState.AddClipboardItem` | src/backend/backend_state.rs:77-121 | an empty payload returns None and changes nothing. Otherwise it returns the old counter as the id and bumps the counter by one. The new item goes at index 0 with that id, the payload and time `now`, and the older items shift down by one, keeping at most 100. Exactly one NewItem with the new item's preview is emitted, and nothing else changes |
| `BackendState.PushBounded` | src/backend/backend_state.rs:110-111 | the new item goes first, every older item moves down by one, and the length is one more than before but never above 100, so on a full history the oldest item is dropped |
| `BackendState.AddClipboardItemKeepsValid` | src/backend/backend_state.rs:77-121 | inserting a payload with unique MIME keys preserves the state invariant |
| `BackendState.AddToFullHistoryDropsOldest` | src/backend/backend_state.rs:110-111 | inserting into a full history keeps 100 items, drops the oldest and shifts the rest down |
| `BackendState.PreviewOf` | src/backend/backend_state.rs:80-97 | the type is Image exactly when an image/png entry is present, and never Other |
| `BackendState.PreviewOfSpec` | src/backend/backend_state.rs:80-97 | image/png wins regardless of other keys: "<image/png N bytes>", type Image. Otherwise valid UTF-8 text gives its first min(200, n) characters, whose bytes are a prefix of the payload. Invalid UTF-8 gives a placeholder naming the text MIME type. No text entry gives a placeholder naming the first key. The type is the classifier's verdict on the preview |
| `BackendState.PlaceholderReadsBack` | src/backend/backend_state.rs:82-93 | a placeholder opens with "<" and the MIME name, carries the byte count in decimal, and ends in " bytes>" |
| `BackendState.PlaceholderType` | src/backend/backend_state.rs:88-95 | a placeholder preview is classified Text or Code, never Url, File or Password |
| `BackendState.GetHistory` | src/backend/backend_state.rs:123-125 | the previews have the history's length and order, one projection per item |
| `BackendState.GetItemById` | src/backend/backend_state.rs:127-129 | a found item is in the history with that id; nothing is found exactly when no item has that id |
| `BackendState.GetItemByIdUnique` | src/backend/backend_state.rs:127-129 | in a valid state, looking up any stored item's id returns that very item |
| `BackendState.ClearHistory` | src/backend/backend_state.rs:131-133 | the history becomes empty; the id counter, ownership record and everything else stay |
| `BackendState.ClearThenAddContinuesIds` | src/backend/backend_state.rs:131-133 | after clearing, the next insert continues the id sequence and is the only item listed |
| `BackendState.PublishRequests` | src/backend/backend_state.rs:149-164 | a publish destroys exactly the previously held source (if any) and offers exactly the item's MIME keys, in order. The requests come in protocol order: destroys, then the creation of the new source, then only offers on it, then setting it as the selection, then a flush, which is present exactly when a connection is bound |
| `BackendState.SetClipboardById` | src/backend/backend_state.rs:135-167 | the not-found error comes exactly when no item has the id. The not-ready error comes exactly when the item exists but the manager, device or queue is unbound. It succeeds exactly when the item exists and all three are bound. On success the new source is the next fresh handle, the entry id is the requested id and suppress is set, and nothing else in the state changes. The requests destroy the old source, create the new one, offer the item's MIME keys in order and then set the selection, in that protocol order, with a flush exactly when a connection is bound |
| `BackendState.SetClipboardByIdKeepsValid` | src/backend/backend_state.rs:135-167 | a successful publish preserves the state invariant |
| `BackendState.NotFoundNamesId` | src/backend/backend_state.rs:136 | the not-found message determines the id it reports |
| `WaylandClipboard.CollectPayloads` | src/backend/wayland_clipboard.rs:300-321 | the collected map has unique keys, each one of the announced MIME types |
| `WaylandClipboard.CollectPayloadsSpec` | src/backend/wayland_clipboard.rs:300-321 | the keys are a subsequence of the announced MIME list, in the same order. A key is absent exactly when no read of that type gave non-empty bytes. A present key maps to the bytes of the last read of that type that gave any |
| `WaylandClipboard.CollectNonEmptyIff` | src/backend/wayland_clipboard.rs:300-323 | the collected map is non-empty exactly when some read gave non-empty bytes |
| `WaylandClipboard.ProcessAllDataFormats` | src/backend/wayland_clipboard.rs:289-335 | with no read giving bytes (including an empty MIME list) nothing changes and no requests are issued. Otherwise one item holding the collected map is stored under the next id. The history and outbox are exactly those `add_clipboard_item` leaves: older items shift down, at most 100 are kept, and one NewItem is pushed. The offer table, current offer, monitor-only flag, protocol handles and connection are never touched |
| `WaylandClipboard.ProcessPublishesIff` | src/backend/wayland_clipboard.rs:323-334 | the stored item is re-published exactly when an item was stored, monitor-only and suppress are off, and the protocol objects are bound. A re-publish is exactly `set_clipboard_by_id` of the new item on the state the insert left, with its destroy, create, offer, set-selection and flush requests. An item stored but not re-published leaves exactly the inserted state and issues no requests. Otherwise the ownership record is unchanged and no requests are issued |
| `WaylandClipboard.OnDataOffer` | src/backend/wayland_clipboard.rs:132-136 | the new offer gets an empty MIME list; other offers and all other fields are unchanged |
| `WaylandClipboard.OnOffer` | src/backend/wayland_clipboard.rs:193-200 | a MIME type is appended to the offer's list exactly when the offer is known and the type does not start with "video"; otherwise nothing changes |
| `WaylandClipboard.OnSelection` | src/backend/wayland_clipboard.rs:137-162 | a cleared selection only forgets the current offer. An unknown offer, or the current offer named again while nothing is pending, changes nothing. While a publish is pending, the offer is recorded and destroyed unread, with history and offer table untouched. Otherwise the offer becomes current and the offer table is emptied. An item with the collected map is stored exactly when some read gave bytes. The history and outbox are those the insert leaves. The requests are those of processing the offer, followed by destroying it. That item is published as our own selection, taking the next source handle with suppress set, exactly when an item was stored, monitoring is off and manager, device and queue are bound. The offer is destroyed last |
| `WaylandClipboard.OnSend` | src/backend/wayland_clipboard.rs:216-239 | whenever an entry id is recorded and names a history item, exactly that item's bytes for the requested MIME type are written, whatever source the event names. Nothing is written otherwise |
| `WaylandClipboard.OnCancelled` | src/backend/wayland_clipboard.rs:240-251 | the cancelled source is always destroyed. Only when it is the current source are suppress and the current source cleared; otherwise the state is unchanged. The entry id is never changed |
| `WaylandClipboard.PublishThenServe` | src/backend/wayland_clipboard.rs:216-232 | after publishing an item, a Send for any MIME type is answered with exactly that item's stored bytes for it |
| `WaylandClipboard.StaleCancelIgnored` | src/backend/wayland_clipboard.rs:240-251 | after a re-publish, the late Cancelled of the replaced source changes nothing |
| `WaylandClipboard.PublishThenCancel` | src/backend/wayland_clipboard.rs:240-251 | cancelling the just-published source clears ownership and suppress, keeps the entry id and the history |
| `WaylandClipboard.ProcessAllDataFormatsKeepsValid` | src/backend/wayland_clipboard.rs:289-335 | reading and storing a selection preserves the state invariant |
| `WaylandClipboard.DeviceEventKeepsValid` | src/backend/wayland_clipboard.rs:131-167 | data-offer and selection events preserve the state invariant |
| `WaylandClipboard.OfferEventKeepsValid` | src/backend/wayland_clipboard.rs:193-200 | MIME offer events preserve the state invariant |
| `WaylandClipboard.SourceEventKeepsValid` | src/backend/wayland_clipboard.rs:240-251 | cancellation events preserve the state invariant |
| `IpcServer.RegisterPushSender` | src/backend/ipc_server.rs:36-38 | the sender is appended at the end and the earlier senders are kept in order |
| `IpcServer.Broadcast` | src/backend/ipc_server.rs:41-44 | the registry keeps the live senders in their original relative order, and as many as there are live senders, so exactly those. The message is delivered once to each kept sender, in registry order |
| `IpcServer.BroadcastOncePerLiveSender` | src/backend/ipc_server.rs:43 | for every id, the number of deliveries equals the number of live senders registered under it; a closed sender gets none |
| `IpcServer.BroadcastSettles` | src/backend/ipc_server.rs:41-44 | after one broadcast every closed sender is gone, so the next broadcast keeps the registry unchanged |
| `IpcServer.HandleRequest` | src/backend/ipc_server.rs:120-137 | GetHistory answers the history previews and changes nothing. SetClipboardById answers ClipboardSet with the publish's state on success, and the error text with the state unchanged on failure. ClearHistory clears and answers HistoryCleared |
| `IpcServer.RequestsDoNotBroadcast` | src/backend/ipc_server.rs:120-137 | no request adds to the broadcast outbox |
| `IpcServer.UnknownIdAnswersError` | src/backend/ipc_server.rs:125-131 | an unknown id answers the not-found error naming that id and leaves the state unchanged |
| `IpcServer.ClearThenGetHistoryEmpty` | src/backend/ipc_server.rs:121-136 | after ClearHistory, GetHistory answers an empty list and the id counter is kept |
| `IpcServer.HandleRequestKeepsValid` | src/backend/ipc_server.rs:120-137 | every request preserves the state invariant |
| `IpcServer.ServedLines` | src/backend/ipc_server.rs:117-118 | the lines served are exactly the well-formed ones before the first malformed line |
| `IpcServer.HandleClient` | src/backend/ipc_server.rs:100-144 | the connection's sender is registered once at the end of the registry. Each well-formed line yields exactly one reply, in request order, and the final state and replies are those of serving the requests one after another. The compositor requests of the served requests are passed on in order. The loop stops at the first malformed line |
| `IpcServer.ReplayReplies` | src/backend/ipc_server.rs:117-141 | the k-th reply answers the k-th request, in the state the earlier requests left |
| `GtkOverlay.FormatTimestampMeaning` | src/frontend/gtk_overlay.rs:516-536 | every label reads back. "Just now" means under 30 seconds, counting a future timestamp as 0. Otherwise the label gives the whole number of units: minutes below an hour, hours below a day, days beyond |
| `GtkOverlay.FormatTimestamp` | src/frontend/gtk_overlay.rs:516-536 | the label is "Just now" exactly when the saturated difference is under 30 seconds; every other label starts with a digit |
| `GtkOverlay.FutureIsJustNow` | src/frontend/gtk_overlay.rs:522-525 | a timestamp in the future is labelled "Just now" |
| `GtkOverlay.PluralIffNotOne` | src/frontend/gtk_overlay.rs:526-535 | a count label ends in "s ago" exactly when the count is not one |
| `GtkOverlay.ZeroMinutesWindow` | src/frontend/gtk_overlay.rs:526-528 | between 30 and 59 seconds the label is "0 minutes ago" |
| `GtkOverlay.InitialRows` | src/frontend/gtk_overlay.rs:211-228 | the built list has one row per item in order, or a single placeholder row when there are none |
| `GtkOverlay.OverlayAddItem` | src/frontend/gtk_overlay.rs:299-321 | with no list nothing happens. Otherwise a leading placeholder is removed, the new row is inserted at index 0 above the remaining rows, and it is selected |
| `GtkOverlay.AddItemRemovesPlaceholder` | src/frontend/gtk_overlay.rs:305-313 | after adding to a freshly built list, no placeholder row remains |
| `GtkOverlay.AddItemKeepsPlaceholderAlone` | src/frontend/gtk_overlay.rs:305-313 | if a placeholder can only appear as the sole row, adding an item leaves only item rows |
| `GtkOverlay.SelectNext` | src/frontend/gtk_overlay.rs:334-346 | with nothing selected it selects row 0 if any rows exist. Otherwise it moves from i to i+1 exactly when row i+1 exists, and stays put otherwise |
| `GtkOverlay.SelectPrev` | src/frontend/gtk_overlay.rs:347-361 | with nothing selected it selects row 0 if any rows exist. Otherwise it moves from i to i-1 exactly when i > 0, never going below 0 |
| `GtkOverlay.NavigationStaysInRange` | src/frontend/gtk_overlay.rs:334-361 | from a selection inside the list, both moves stay inside it |
| `GtkOverlay.NavigationUndo` | src/frontend/gtk_overlay.rs:334-361 | a move down that moved is undone by a move up, and vice versa |
| `GtkOverlay.ActivateAsWritten` | src/frontend/gtk_overlay.rs:231-252 | an index activates an item exactly when it is below the length of the list the overlay was built from, and then names an item of that list |
| `GtkOverlay.ActivationMatchesInitialRows` | src/frontend/gtk_overlay.rs:212-235 | on the list as built, activating a row picks that row's item and the placeholder picks nothing |
| `GtkOverlay.StaleActivationAfterInsert` | src/frontend/gtk_overlay.rs:231-235 | after an insert, the selected new top row activates the item that used to be first, not the inserted one |
| `GtkOverlay.ActivateRow` | src/frontend/gtk_overlay.rs:232-235 | corrected activation: a row activates an item exactly when it is an item row |
| `GtkOverlay.ActivateRowSpec` | src/frontend/gtk_overlay.rs:232-235 | corrected activation agrees with the as-written handler on the list as built. After any insert, the selected new row activates the inserted item |

## Left out

- `start_monitoring` (connecting, binding globals, exiting when globals are missing, the blocking dispatch loop), the `Drop` teardown and `event_created_child`. These are protocol plumbing and process control. The model starts from a state whose handles are already bound or unbound.
- Pipes, fd writes and the connection flush. A read is the `PipeRead` oracle. The receive request and the flush after it for each MIME type (src/backend/wayland_clipboard.rs:308-311) are not listed among the returned requests. Only the publish's flush is a `Flush` request.
- `Arc<Mutex<…>>`, the registry lock, tokio tasks, the per-connection writer task, the accept loop and socket-file handling. Each handler and request is modelled as one atomic step.
- serde JSON encoding and decoding. Messages are datatypes. A request line either parses to a message or is malformed (`IpcServer.Line`).
- The debug-build sample items seeded at start-up, and the UI client `src/frontend/ipc_client.rs`.
- GTK widget construction, CSS, layer-shell setup, window margins (float casts), the nanosecond demo item, the `icon()` emoji table and `LauncherMessage`.
- The overlay's on-demand history fetch when the prefetched list is empty. `GtkOverlay.InitialRows` takes the list after any such fetch.
- Focus grabbing and the Enter key re-emitting `activate`. Activation is modelled by row index.
- `PrimarySelection` device events, which are ignored.
- Integer widths: ids, timestamps and byte counts are unbounded `nat`, not `u64`. The `u64` overflow of the id counter after 2^64 items is not modelled.
- The link from `outbox` to the registry's `Broadcast` is not composed into one transition. The outbox records what `add_clipboard_item` hands to the hub, and `IpcServer.Broadcast` states what the hub does with each message.

## Findings

| source | as written | input that shows it | evidently intended | confidence | as-written member | corrected member |
|---|---|---|---|---|---|---|
| src/frontend/gtk_overlay.rs:231-235 | row activation looks the index up in the list the overlay was built from, which rows inserted later by `overlay_add_item` (src/frontend/gtk_overlay.rs:313-314) do not update | overlay built from items [A]; the header's demo button (src/frontend/gtk_overlay.rs:259-275, the only caller of `overlay_add_item`) inserts and selects a row B at index 0; Enter on row 0 publishes A. `NewItem` pushes do not reach the overlay yet (the client only logs them, src/frontend/ipc_client.rs:58-66), so no real item takes this path today | activating a row publishes the item that row shows (B) | medium; not executed | `GtkOverlay.StaleActivationAfterInsert` | `GtkOverlay.ActivateRowSpec` |

=== FILE: backend_state.dfy ===
/** The history store and the ownership record the daemon keeps behind one
    lock (`BackendState`). Wayland proxies are natural-number handles; the
    protocol requests an operation issues are returned as a list instead of
    being sent, and the notifications it hands to the broadcast hub are
    appended to `outbox`. */
module BackendState {
  import opened Wrappers
  import opened Strings
  import opened Utf8
  import opened IndexMaps
  import opened DataStructures

  /** A Wayland object id. */
  type Handle = nat

  const HistoryCapacity: nat := 100
  const PreviewChars: nat := 200
  const PngMime: string := "image/png"
  const TextMime: string := "text/plain;charset=utf-8"
  const NotReadyMessage: string := "Wayland clipboard objects not available yet"

  /** Requests the daemon sends to the compositor. */
  datatype Request =
    | CreateSource(source: Handle)
    | OfferMime(source: Handle, mime: string)
    | SetSelection(source: Handle)
    | DestroySource(source: Handle)
    | DestroyOffer(offer: Handle)
    | Flush

  datatype State = State(
    history: seq<ClipboardItem>,
    idForNextEntry: nat,
    // bound protocol objects: data-control manager, device, event queue, connection
    manager: Option<Handle>,
    device: Option<Handle>,
    queue: Option<Handle>,
    connection: Option<Handle>,
    // offer id -> MIME types announced for it so far
    mimeTypeOffers: map<Handle, seq<string>>,
    currentDataOffer: Option<Handle>,
    currentSource: Option<Handle>,
    currentSourceEntryId: Option<nat>,
    suppressNextSelectionRead: bool,
    monitorOnly: bool,
    // sources this client has created; the next one gets this handle
    sourcesCreated: nat,
    // notifications handed to the broadcast hub, oldest first
    outbox: seq<BackendMessage>)

  /** The state invariant every transition keeps. The history is bounded,
      newest first, with ids strictly decreasing and all below the counter;
      each item has a non-empty payload with unique MIME keys. The suppress
      flag is set exactly while the daemon holds a source of its own, and that
      source is the most recently allocated handle or older. */
  ghost predicate Valid(s: State) {
    && |s.history| <= HistoryCapacity
    && s.idForNextEntry >= 1
    && (forall i :: 0 <= i < |s.history| ==>
          && 1 <= s.history[i].itemId < s.idForNextEntry
          && |s.history[i].mimeData| > 0
          && UniqueKeys(s.history[i].mimeData))
    && (forall i, j :: 0 <= i < j < |s.history| ==> s.history[i].itemId > s.history[j].itemId)
    && (s.suppressNextSelectionRead <==> s.currentSource.Some?)
    && (s.currentSource.Some? ==> s.currentSource.value < s.sourcesCreated && s.currentSourceEntryId.Some?)
  }

  /** `BackendState::new()` */
  function New(): (s: State)
    ensures Valid(s)
    ensures s.history == [] && s.idForNextEntry == 1
    ensures s.currentSource == None && s.currentSourceEntryId == None && s.currentDataOffer == None
    ensures !s.suppressNextSelectionRead && !s.monitorOnly
    ensures s.mimeTypeOffers == map[] && s.outbox == []
  {
    State([], 1, None, None, None, None, map[], None, None, None, false, false, 0, [])
  }

  function Min(a: nat, b: nat): nat {
    if a <= b then a else b
  }

  /** `format!("<{mime} {len} bytes>")` */
  function Placeholder(mime: string, len: nat): string {
    "<" + mime + " " + NatToString(len) + " bytes>"
  }

  /** The preview text and content type `add_clipboard_item` derives from a
      payload map: image/png wins outright; otherwise the UTF-8 text entry
      (its first 200 characters, or a placeholder if it is not valid UTF-8);
      otherwise a placeholder naming the first entry. */
  function PreviewOf(m: IndexMap<seq<Byte>>): (r: (string, ContentType))
    requires |m| > 0
    ensures r.1 == Image <==> Get(m, PngMime).Some?
    ensures r.1 != Other
  {
    match Get(m, PngMime)
    case Some(png) => (Placeholder(PngMime, |png|), Image)
    case None =>
      var preview :=
        match Get(m, TextMime)
        case Some(txt) =>
          (match Decode(txt)
           case Some(text) => text[..Min(PreviewChars, |text|)]
           case None => Placeholder(TextMime, |txt|))
        case None => Placeholder(m[0].0, |m[0].1|);
      (preview, TypeFromPreview(preview))
  }

  /** A placeholder states the MIME type and the byte count it stands for. */
  lemma PlaceholderReadsBack(mime: string, len: nat)
    ensures var p := Placeholder(mime, len);
      && StartsWith(p, "<" + mime + " ")
      && var digits := p[|mime| + 2..|p| - 7];
      && AllDigits(digits) && ParseDigits(digits) == len
      && p[|p| - 7..] == " bytes>"
  {
    var p := Placeholder(mime, len);
    assert p[|mime| + 2..|p| - 7] == NatToString(len);
    NatToStringRoundTrip(len);
  }

  /** A placeholder is never classified Url, File or Password: it opens with
      '<' and contains a space. */
  lemma PlaceholderType(mime: string, len: nat)
    ensures var t := TypeFromPreview(Placeholder(mime, len)); t == Text || t == Code
  {
    var p := Placeholder(mime, len);
    FirstCharBlocksPrefix(p, "http://");
    FirstCharBlocksPrefix(p, "https://");
    assert p[|mime| + 1] == ' ';
  }

  /** The preview rules. With image/png present the item is an Image whose
      preview reads back the PNG's byte count, whatever else is present.
      Otherwise valid UTF-8 text gives a preview that is its first
      `min(200, n)` characters, whose bytes begin the payload; every other
      case gives a placeholder; and the type is the classifier's verdict on
      the preview. */
  lemma PreviewOfSpec(m: IndexMap<seq<Byte>>)
    requires |m| > 0
    ensures Get(m, PngMime).Some? ==>
      && PreviewOf(m) == (Placeholder(PngMime, |Get(m, PngMime).value|), Image)
    ensures Get(m, PngMime).None? ==> PreviewOf(m).1 == TypeFromPreview(PreviewOf(m).0)
    ensures Get(m, PngMime).None? && Get(m, TextMime).Some? && Decode(Get(m, TextMime).value).Some? ==>
      var text := Decode(Get(m, TextMime).value).value;
      var p := PreviewOf(m).0;
      && |p| == Min(PreviewChars, |text|)
      && p == text[..|p|]
      && Encode(p) <= Get(m, TextMime).value
    ensures Get(m, PngMime).None? && Get(m, TextMime).Some? && Decode(Get(m, TextMime).value).None? ==>
      PreviewOf(m).0 == Placeholder(TextMime, |Get(m, TextMime).value|)
    ensures Get(m, PngMime).None? && Get(m, TextMime).None? ==>
      PreviewOf(m).0 == Placeholder(m[0].0, |m[0].1|)
  {
    if Get(m, PngMime).None? && Get(m, TextMime).Some? && Decode(Get(m, TextMime).value).Some? {
      TextPreviewBegins(m, Get(m, TextMime).value, Decode(Get(m, TextMime).value).value);
    }
  }

  lemma TextPreviewBegins(m: IndexMap<seq<Byte>>, txt: seq<Byte>, text: string)
    requires |m| > 0 && Get(m, PngMime).None? && Get(m, TextMime) == Some(txt) && Decode(txt) == Some(text)
    ensures var p := PreviewOf(m).0;
      && |p| == Min(PreviewChars, |text|)
      && p == text[..|p|]
      && Encode(p) <= txt
  {
    var p := text[..Min(PreviewChars, |text|)];
    assert PreviewOf(m).0 == p;
    DecodedPrefixBegins(txt, text, |p|);
  }

  /** The bytes of the first `n` decoded characters begin the decoded bytes. */
  lemma DecodedPrefixBegins(txt: seq<Byte>, text: string, n: nat)
    requires Decode(txt) == Some(text) && n <= |text|
    ensures Encode(text[..n]) <= txt
  {
    EncodeDecode(txt);
    EncodePrefix(text[..n], text[n..]);
    assert text[..n] + text[n..] == text;
  }

  /** The bytes of a prefix begin the bytes of the whole string. */
  lemma {:induction false} EncodePrefix(p: string, rest: string)
    ensures Encode(p + rest) == Encode(p) + Encode(rest)
    decreases |p|
  {
    if |p| > 0 {
      EncodePrefix(p[1..], rest);
      assert (p + rest)[1..] == p[1..] + rest;
    } else {
      assert p + rest == rest;
    }
  }

  /** `history.insert(0, item)` followed by `truncate(100)`: the item goes
      first and the older items move down by one, the oldest falling off a
      full history. */
  function PushBounded(h: seq<ClipboardItem>, item: ClipboardItem): (r: seq<ClipboardItem>)
    ensures |r| == Min(|h| + 1, HistoryCapacity)
    ensures r[0] == item
    ensures forall i :: 1 <= i < |r| ==> r[i] == h[i - 1]
  {
    var inserted := [item] + h;
    if |inserted| > HistoryCapacity then inserted[..HistoryCapacity] else inserted
  }

  /** `add_clipboard_item(mime_content)` at wall-clock time `now`. Returns the
      new state and the id assigned, or the state unchanged and None for an
      empty payload. */
  function AddClipboardItem(s: State, m: IndexMap<seq<Byte>>, now: nat): (r: (State, Option<nat>))
    ensures |m| == 0 <==> r.1.None?
    ensures |m| == 0 ==> r.0 == s
    ensures |m| > 0 ==>
      && r.1 == Some(s.idForNextEntry)
      && r.0.idForNextEntry == s.idForNextEntry + 1
      && |r.0.history| == Min(|s.history| + 1, HistoryCapacity)
      && r.0.history[0].itemId == s.idForNextEntry
      && r.0.history[0].mimeData == m
      && r.0.history[0].timestamp == now
      && (r.0.history[0].contentPreview, r.0.history[0].contentType) == PreviewOf(m)
      && (forall i :: 1 <= i < |r.0.history| ==> r.0.history[i] == s.history[i - 1])
      && r.0.outbox == s.outbox + [NewItem(ToPreview(r.0.history[0]))]
      && r.0.(history := s.history, idForNextEntry := s.idForNextEntry, outbox := s.outbox) == s
  {
    if |m| == 0 then (s, None)
    else
      var p := PreviewOf(m);
      var item := ClipboardItem(s.idForNextEntry, p.0, p.1, now, m);
      var history := PushBounded(s.history, item);
      var s' := s.(history := history, idForNextEntry := s.idForNextEntry + 1,
                   outbox := s.outbox + [NewItem(ToPreview(item))]);
      (s', Some(s.idForNextEntry))
  }

  lemma AddClipboardItemKeepsValid(s: State, m: IndexMap<seq<Byte>>, now: nat)
    requires Valid(s) && UniqueKeys(m)
    ensures Valid(AddClipboardItem(s, m, now).0)
  {
    if |m| > 0 {
      var h := AddClipboardItem(s, m, now).0.history;
      forall i, j | 0 <= i < j < |h| ensures h[i].itemId > h[j].itemId {
        assert h[j] == s.history[j - 1];
        if i > 0 {
          assert h[i] == s.history[i - 1];
        }
      }
    }
  }

  /** After an insert into a full history the oldest item is gone and the
      rest moved down by one. */
  lemma AddToFullHistoryDropsOldest(s: State, m: IndexMap<seq<Byte>>, now: nat)
    requires |s.history| == HistoryCapacity && |m| > 0
    ensures var h := AddClipboardItem(s, m, now).0.history;
      && |h| == HistoryCapacity
      && h[1..] == s.history[..HistoryCapacity - 1]
  {
  }

  /** `get_history()`: the previews, in history order. */
  function GetHistory(s: State): (r: seq<ClipboardItemPreview>)
    ensures |r| == |s.history|
    ensures forall i :: 0 <= i < |r| ==> r[i] == ToPreview(s.history[i])
  {
    seq(|s.history|, i requires 0 <= i < |s.history| => ToPreview(s.history[i]))
  }

  /** The first item in `h` with id `id`. */
  function FindById(h: seq<ClipboardItem>, id: nat): (r: Option<ClipboardItem>)
    ensures r.Some? ==> r.value in h && r.value.itemId == id
    ensures r.None? <==> forall i :: 0 <= i < |h| ==> h[i].itemId != id
    decreases |h|
  {
    if |h| == 0 then None
    else if h[0].itemId == id then Some(h[0])
    else FindById(h[1..], id)
  }

  /** `get_item_by_id(id)` */
  function GetItemById(s: State, id: nat): (r: Option<ClipboardItem>)
    ensures r.Some? ==> r.value in s.history && r.value.itemId == id
    ensures r.None? <==> forall i :: 0 <= i < |s.history| ==> s.history[i].itemId != id
  {
    FindById(s.history, id)
  }

  /** Ids are unique in a valid history, so the lookup finds the one item. */
  lemma GetItemByIdUnique(s: State, i: nat)
    requires Valid(s) && i < |s.history|
    ensures GetItemById(s, s.history[i].itemId) == Some(s.history[i])
  {
    var r := GetItemById(s, s.history[i].itemId);
    var j :| 0 <= j < |s.history| && s.history[j] == r.value;
  }

  /** `clear_history()`: only the history goes; the id counter and the
      ownership record stay. */
  function ClearHistory(s: State): (r: State)
    ensures r.history == []
    ensures r.(history := s.history) == s
  {
    s.(history := [])
  }

  /** Clearing does not reset the counter: the next insert continues the ids. */
  lemma ClearThenAddContinuesIds(s: State, m: IndexMap<seq<Byte>>, now: nat)
    requires |m| > 0
    ensures var (s', id) := AddClipboardItem(ClearHistory(s), m, now);
      && id == Some(s.idForNextEntry)
      && GetHistory(s') == [ToPreview(s'.history[0])]
  {
  }

  /** The daemon's side of a successful publish. */
  datatype Published = Published(state: State, requests: seq<Request>)

  /** The MIME types a request list offers, in order. */
  function OfferedMimes(reqs: seq<Request>): seq<string>
    decreases |reqs|
  {
    if |reqs| == 0 then []
    else (if reqs[0].OfferMime? then [reqs[0].mime] else []) + OfferedMimes(reqs[1..])
  }

  /** The sources a request list destroys, in order. */
  function DestroyedSources(reqs: seq<Request>): seq<Handle>
    decreases |reqs|
  {
    if |reqs| == 0 then []
    else (if reqs[0].DestroySource? then [reqs[0].source] else []) + DestroyedSources(reqs[1..])
  }

  function OfferAll(h: Handle, m: IndexMap<seq<Byte>>): (r: seq<Request>)
    ensures OfferedMimes(r) == Keys(m) && DestroyedSources(r) == []
    ensures |r| == |m| && forall i :: 0 <= i < |r| ==> r[i].OfferMime? && r[i].source == h
    decreases |m|
  {
    if |m| == 0 then [] else [OfferMime(h, m[0].0)] + OfferAll(h, m[1..])
  }

  /** The shape of a publish, with the creation at `c` and the selection at
      `sel`: only destroys before the creation, only offers on the new source
      between creation and selection, only flushes after it. */
  ghost predicate PublishShapeAt(r: seq<Request>, h: Handle, c: nat, sel: nat) {
    && c < sel < |r|
    && r[c] == CreateSource(h)
    && r[sel] == SetSelection(h)
    && (forall i :: 0 <= i < c ==> r[i].DestroySource?)
    && (forall i :: c < i < sel ==> r[i].OfferMime? && r[i].source == h)
    && (forall i :: sel < i < |r| ==> r[i] == Flush)
  }

  /** The requests of a publish come in protocol order: the old source is
      destroyed, the new one created, offered to, and only then installed. */
  ghost predicate PublishOrdered(r: seq<Request>, h: Handle) {
    exists c, sel :: PublishShapeAt(r, h, c, sel)
  }

  lemma OfferedMimesConcat(a: seq<Request>, b: seq<Request>)
    ensures OfferedMimes(a + b) == OfferedMimes(a) + OfferedMimes(b)
    ensures DestroyedSources(a + b) == DestroyedSources(a) + DestroyedSources(b)
  {
    if |a| > 0 {
      OfferedMimesConcat(a[1..], b);
      assert (a + b)[1..] == a[1..] + b;
    } else {
      assert a + b == b;
    }
  }

  /** The requests of one publish: destroy the source held so far, create a
      new one, offer each MIME type of the payload, install it as the
      selection, and flush when a connection is bound. */
  function PublishRequests(prev: Option<Handle>, h: Handle, m: IndexMap<seq<Byte>>, flush: bool): (r: seq<Request>)
    ensures OfferedMimes(r) == Keys(m)
    ensures DestroyedSources(r) == (if prev.Some? then [prev.value] else [])
    ensures PublishOrdered(r, h)
    ensures flush <==> Flush in r
  {
    var destroy := if prev.Some? then [DestroySource(prev.value)] else [];
    var tail := if flush then [Flush] else [];
    PublishShape(destroy, h, m, tail);
    PublishContents(destroy, h, m, tail);
    destroy + [CreateSource(h)] + OfferAll(h, m) + [SetSelection(h)] + tail
  }

  lemma PublishContents(destroy: seq<Request>, h: Handle, m: IndexMap<seq<Byte>>, tail: seq<Request>)
    requires OfferedMimes(destroy) == [] && OfferedMimes(tail) == [] && DestroyedSources(tail) == []
    ensures var r := destroy + [CreateSource(h)] + OfferAll(h, m) + [SetSelection(h)] + tail;
      && OfferedMimes(r) == Keys(m)
      && DestroyedSources(r) == DestroyedSources(destroy)
  {
    var create := destroy + [CreateSource(h)];
    var offer := create + OfferAll(h, m);
    var select := offer + [SetSelection(h)];
    OfferedMimesConcat(destroy, [CreateSource(h)]);
    OfferedMimesConcat(create, OfferAll(h, m));
    OfferedMimesConcat(offer, [SetSelection(h)]);
    OfferedMimesConcat(select, tail);
  }

  lemma PublishShape(destroy: seq<Request>, h: Handle, m: IndexMap<seq<Byte>>, tail: seq<Request>)
    requires forall i :: 0 <= i < |destroy| ==> destroy[i].DestroySource?
    requires forall i :: 0 <= i < |tail| ==> tail[i] == Flush
    ensures var r := destroy + [CreateSource(h)] + OfferAll(h, m) + [SetSelection(h)] + tail;
      && PublishShapeAt(r, h, |destroy|, |destroy| + 1 + |m|)
      && (Flush in r <==> |tail| > 0)
  {
    var offers := OfferAll(h, m);
    var r := destroy + [CreateSource(h)] + offers + [SetSelection(h)] + tail;
    var c := |destroy|;
    var sel := c + 1 + |m|;
    assert r[c] == CreateSource(h);
    assert r[sel] == SetSelection(h);
    assert forall i :: 0 <= i < c ==> r[i] == destroy[i];
    assert forall i :: c < i < sel ==> r[i] == offers[i - c - 1];
    assert forall i :: sel < i < |r| ==> r[i] == tail[i - sel - 1];
    if Flush in r {
      var i :| 0 <= i < |r| && r[i] == Flush;
      assert i > sel;
    }
    if |tail| > 0 {
      assert r[sel + 1] == Flush;
    }
  }

  function NotFoundMessage(id: nat): string {
    "No clipboard item found with ID: " + NatToString(id)
  }

  /** `set_clipboard_by_id(id)`: publish a history item as the selection. */
  function SetClipboardById(s: State, id: nat): (r: Result<Published, string>)
    ensures r == Err(NotFoundMessage(id)) <==> forall i :: 0 <= i < |s.history| ==> s.history[i].itemId != id
    ensures r == Err(NotReadyMessage) <==>
      GetItemById(s, id).Some? && (s.manager.None? || s.device.None? || s.queue.None?)
    ensures r.Ok? <==> GetItemById(s, id).Some? && s.manager.Some? && s.device.Some? && s.queue.Some?
    ensures r.Ok? ==>
      var item := GetItemById(s, id).value;
      var p := r.value;
      && p.state.currentSource == Some(s.sourcesCreated)
      && p.state.currentSourceEntryId == Some(id)
      && p.state.suppressNextSelectionRead
      && p.state.sourcesCreated == s.sourcesCreated + 1
      && p.state.(currentSource := s.currentSource, currentSourceEntryId := s.currentSourceEntryId,
                  suppressNextSelectionRead := s.suppressNextSelectionRead,
                  sourcesCreated := s.sourcesCreated) == s
      && OfferedMimes(p.requests) == Keys(item.mimeData)
      && DestroyedSources(p.requests) == (if s.currentSource.Some? then [s.currentSource.value] else [])
      && PublishOrdered(p.requests, s.sourcesCreated)
      && (Flush in p.requests <==> s.connection.Some?)
  {
    match GetItemById(s, id)
    case None =>
      assert NotFoundMessage(id)[0] != NotReadyMessage[0];
      Err(NotFoundMessage(id))
    case Some(item) =>
      if s.manager.None? || s.device.None? || s.queue.None? then Err(NotReadyMessage)
      else
        var h := s.sourcesCreated;
        var reqs := PublishRequests(s.currentSource, h, item.mimeData, s.connection.Some?);
        Ok(Published(
          s.(currentSource := Some(h), currentSourceEntryId := Some(id),
             suppressNextSelectionRead := true, sourcesCreated := h + 1),
          reqs))
  }

  lemma SetClipboardByIdKeepsValid(s: State, id: nat)
    requires Valid(s) && SetClipboardById(s, id).Ok?
    ensures Valid(SetClipboardById(s, id).value.state)
  {
    var t := SetClipboardById(s, id).value.state;
    TakeOwnershipKeepsValid(s, t);
  }

  /** Taking ownership with a freshly allocated handle, touching nothing but
      the ownership fields, keeps the invariant. */
  lemma TakeOwnershipKeepsValid(s: State, t: State)
    requires Valid(s)
    requires t.(currentSource := s.currentSource, currentSourceEntryId := s.currentSourceEntryId,
                suppressNextSelectionRead := s.suppressNextSelectionRead,
                sourcesCreated := s.sourcesCreated) == s
    requires t.currentSource == Some(s.sourcesCreated) && t.sourcesCreated == s.sourcesCreated + 1
    requires t.suppressNextSelectionRead && t.currentSourceEntryId.Some?
    ensures Valid(t)
  {
    assert t.history == s.history && t.idForNextEntry == s.idForNextEntry;
  }

  /** The not-found message names the id it was asked for. */
  lemma NotFoundNamesId(id: nat, id': nat)
    requires NotFoundMessage(id) == NotFoundMessage(id')
    ensures id == id'
  {
    var p := "No clipboard item found with ID: ";
    assert NotFoundMessage(id)[|p|..] == NatToString(id);
    assert NotFoundMessage(id')[|p|..] == NatToString(id');
    NatToStringInjective(id, id');
  }
}

=== FILE: data_structures.dfy ===
/** The shared data model: clipboard items, their payload-free previews,
    the content classifier and the IPC message enums. */
module DataStructures {
  import opened Wrappers
  import opened Strings
  import opened Utf8
  import opened IndexMaps

  datatype ContentType = Text | Url | Code | Password | File | Image | Other

  /** A history entry. `mimeData` maps MIME type to payload bytes in the
      order the types were collected. */
  datatype ClipboardItem = ClipboardItem(
    itemId: nat,
    contentPreview: string,
    contentType: ContentType,
    timestamp: nat,
    mimeData: IndexMap<seq<Byte>>)

  /** What crosses the IPC boundary: an item without its payload. */
  datatype ClipboardItemPreview = ClipboardItemPreview(
    itemId: nat,
    contentPreview: string,
    contentType: ContentType,
    timestamp: nat)

  /** Requests a UI client sends. */
  datatype FrontendMessage = GetHistory | SetClipboardById(id: nat) | ClearHistory

  /** Replies and pushes the daemon sends. */
  datatype BackendMessage =
    | History(items: seq<ClipboardItemPreview>)
    | NewItem(item: ClipboardItemPreview)
    | ClipboardSet
    | HistoryCleared
    | Error(message: string)

  /** `ClipboardItemPreview::from(&item)`: the preview and the payload
      together rebuild the item. */
  function ToPreview(item: ClipboardItem): (r: ClipboardItemPreview)
    ensures ClipboardItem(r.itemId, r.contentPreview, r.contentType, r.timestamp, item.mimeData) == item
  {
    ClipboardItemPreview(item.itemId, item.contentPreview, item.contentType, item.timestamp)
  }

  /** The projection forgets the payload and nothing else: two items have the
      same preview exactly when they agree once their payloads are made equal. */
  lemma ToPreviewForgetsOnlyPayload(a: ClipboardItem, b: ClipboardItem)
    ensures ToPreview(a) == ToPreview(b) <==> a.(mimeData := b.mimeData) == b
  {
  }

  /** Reads a label back; the inverse of `AsStr`. */
  function ParseContentType(s: string): Option<ContentType> {
    if s == "Text" then Some(Text)
    else if s == "Url" then Some(Url)
    else if s == "Code" then Some(Code)
    else if s == "Password" then Some(Password)
    else if s == "File" then Some(File)
    else if s == "Image" then Some(Image)
    else if s == "Other" then Some(Other)
    else None
  }

  /** `ClipboardContentType::as_str`: the variant's own name, which reads
      back as the variant. */
  function AsStr(t: ContentType): (s: string)
    ensures |s| > 0
    ensures ParseContentType(s) == Some(t)
  {
    match t
    case Text => "Text"
    case Url => "Url"
    case Code => "Code"
    case Password => "Password"
    case File => "File"
    case Image => "Image"
    case Other => "Other"
  }

  /** Since every label reads back, `AsStr` is injective. */
  lemma AsStrInjective(t: ContentType, u: ContentType)
    ensures AsStr(t) == AsStr(u) <==> t == u
  {
  }

  /** The characters whose presence makes a short, space-free string look like
      a password. */
  const PasswordSpecials: string := "!@#$%^&*()-_=+[]{};:,.<>?/\\|`~"

  predicate HasPasswordSpecial(content: string) {
    exists i :: 0 <= i < |content| && content[i] in PasswordSpecials
  }

  // The classifier's rules, stated over substring occurrence and the encoded
  // bytes rather than over the scanning functions the classifier runs.

  ghost predicate UrlRule(c: string) {
    (|c| >= 7 && c[..7] == "http://") || (|c| >= 8 && c[..8] == "https://")
  }

  ghost predicate CodeRule(c: string) {
    OccursIn("fn ", c) || OccursIn("impl ", c) || OccursIn("struct ", c)
  }

  ghost predicate FileRule(c: string) {
    '/' in c && ' ' !in c && |Encode(c)| < 256
  }

  ghost predicate PasswordRule(c: string) {
    c != [] && |Encode(c)| < 50 && ' ' !in c && exists ch :: ch in c && ch in PasswordSpecials
  }

  /** `ClipboardContentType::type_from_preview`: the first rule that holds
      wins, in the order Url, Code, File, Password, and Text when none does.
      Each case is an if-and-only-if. Lengths are UTF-8 byte lengths, as
      `str::len` measures them. */
  function TypeFromPreview(content: string): (r: ContentType)
    ensures r == Url <==> UrlRule(content)
    ensures r == Code <==> !UrlRule(content) && CodeRule(content)
    ensures r == File <==> !UrlRule(content) && !CodeRule(content) && FileRule(content)
    ensures r == Password
      <==> !UrlRule(content) && !CodeRule(content) && !FileRule(content) && PasswordRule(content)
    ensures r == Text
      <==> !UrlRule(content) && !CodeRule(content) && !FileRule(content) && !PasswordRule(content)
  {
    ContainsIff(content, "fn ");
    ContainsIff(content, "impl ");
    ContainsIff(content, "struct ");
    ByteLenIsEncodedLength(content);
    HasPasswordSpecialIff(content);
    if StartsWith(content, "http://") || StartsWith(content, "https://") then Url
    else if Contains(content, "fn ") || Contains(content, "impl ") || Contains(content, "struct ") then Code
    else if '/' in content && ' ' !in content && ByteLen(content) < 256 then File
    else if |content| > 0 && ByteLen(content) < 50 && ' ' !in content && HasPasswordSpecial(content) then Password
    else Text
  }

  lemma HasPasswordSpecialIff(c: string)
    ensures HasPasswordSpecial(c) <==> exists ch :: ch in c && ch in PasswordSpecials
  {
    if exists ch :: ch in c && ch in PasswordSpecials {
      var ch :| ch in c && ch in PasswordSpecials;
      var i :| 0 <= i < |c| && c[i] == ch;
    }
  }

  /** Anything starting with an http(s) scheme is a Url, whatever follows. */
  lemma UrlPrefixWins(rest: string)
    ensures TypeFromPreview("http://" + rest) == Url
    ensures TypeFromPreview("https://" + rest) == Url
  {
    assert ("http://" + rest)[..7] == "http://";
    assert ("https://" + rest)[..8] == "https://";
  }

  /** The classifier never answers Image or Other, and a Password never holds
      a '/': such text is already File, because 50 bytes is under 256. */
  lemma TypeFromPreviewRange(c: string)
    ensures TypeFromPreview(c) != Image && TypeFromPreview(c) != Other
    ensures TypeFromPreview(c) == Password ==> '/' !in c && ByteLen(c) < 50
  {
  }

  /** Text without a space is never Code: every code marker ends in one. */
  lemma NoSpaceNotCode(c: string)
    requires ' ' !in c
    ensures !(Contains(c, "fn ") || Contains(c, "impl ") || Contains(c, "struct "))
  {
    if Contains(c, "fn ") { ContainsNeedsChar(c, "fn ", ' '); }
    if Contains(c, "impl ") { ContainsNeedsChar(c, "impl ", ' '); }
    if Contains(c, "struct ") { ContainsNeedsChar(c, "struct ", ' '); }
  }

  // The worked examples: a URL, Rust code, a path, a password-like token and
  // plain words.

  lemma ExampleUrl()
    ensures TypeFromPreview("https://example.com") == Url
  {
    assert StartsWith("https://example.com", "https://");
  }

  lemma ExampleCode()
    ensures TypeFromPreview("impl Foo for Bar {}") == Code
  {
    FirstCharBlocksPrefix("impl Foo for Bar {}", "http://");
    FirstCharBlocksPrefix("impl Foo for Bar {}", "https://");
    assert StartsWith("impl Foo for Bar {}", "impl ");
  }

  lemma ExampleFile(c: string)
    requires c == "/etc/passwd"
    ensures TypeFromPreview(c) == File
  {
    assert !StartsWith(c, "http://") by { FirstCharBlocksPrefix(c, "http://"); }
    assert !StartsWith(c, "https://") by { FirstCharBlocksPrefix(c, "https://"); }
    assert ' ' !in c;
    assert !(Contains(c, "fn ") || Contains(c, "impl ") || Contains(c, "struct ")) by {
      NoSpaceNotCode(c);
    }
    assert '/' in c by { assert c[0] == '/'; }
    assert ByteLen(c) < 256 by { AsciiByteLen(c); }
  }

  lemma ExamplePassword(c: string)
    requires c == "Xk7!mP9q"
    ensures TypeFromPreview(c) == Password
  {
    assert !StartsWith(c, "http://") by { FirstCharBlocksPrefix(c, "http://"); }
    assert !StartsWith(c, "https://") by { FirstCharBlocksPrefix(c, "https://"); }
    assert ' ' !in c;
    assert !(Contains(c, "fn ") || Contains(c, "impl ") || Contains(c, "struct ")) by {
      NoSpaceNotCode(c);
    }
    assert '/' !in c;
    assert ByteLen(c) < 50 by { AsciiByteLen(c); }
    assert HasPasswordSpecial(c) by { assert c[3] in PasswordSpecials; }
  }

  lemma ExampleText(c: string)
    requires c == "just some words"
    ensures TypeFromPreview(c) == Text
  {
    PlainWordsMatchNoRule(c);
  }

  lemma PlainWordsMatchNoRule(c: string)
    requires c == "just some words"
    ensures !StartsWith(c, "http://") && !StartsWith(c, "https://")
    ensures !Contains(c, "fn ") && !Contains(c, "impl ") && !Contains(c, "struct ")
    ensures ' ' in c
  {
    FirstCharBlocksPrefix(c, "http://");
    FirstCharBlocksPrefix(c, "https://");
    assert 'f' !in c;
    if Contains(c, "fn ") { ContainsNeedsChar(c, "fn ", 'f'); }
    assert 'i' !in c;
    if Contains(c, "impl ") { ContainsNeedsChar(c, "impl ", 'i'); }
    assert 'c' !in c;
    if Contains(c, "struct ") { ContainsNeedsChar(c, "struct ", 'c'); }
    assert c[4] == ' ';
  }
}

=== FILE: gtk_overlay.dfy ===
/** The pure logic of the history overlay: relative-time labels, keyboard
    navigation over the list rows, the placeholder row, dynamic insertion
    and the bound check on activation. The current time is a parameter. */
module GtkOverlay {
  import opened Wrappers
  import opened Strings
  import opened DataStructures

  // ---------------------------------------------------------------------
  // format_timestamp

  /** `now.saturating_sub(timestamp)` */
  function Elapsed(timestamp: nat, now: nat): nat {
    if now >= timestamp then now - timestamp else 0
  }

  function Plural(n: nat): string {
    if n == 1 then "" else "s"
  }

  /** `format_timestamp(timestamp)` evaluated at time `now`. The label is
      "Just now" exactly for under 30 seconds, which takes in every timestamp
      in the future; every other label starts with a digit. */
  function FormatTimestamp(timestamp: nat, now: nat): (r: string)
    ensures r == "Just now" <==> Elapsed(timestamp, now) < 30
    ensures Elapsed(timestamp, now) >= 30 ==> |r| > 0 && IsDigit(r[0])
  {
    var diff := Elapsed(timestamp, now);
    if diff < 30 then "Just now"
    else if diff < 3600 then
      var minutes := diff / 60;
      var t := NatToString(minutes) + " minute" + Plural(minutes) + " ago";
      assert t[0] == NatToString(minutes)[0];
      t
    else if diff < 86400 then
      var hours := diff / 3600;
      var t := NatToString(hours) + " hour" + Plural(hours) + " ago";
      assert t[0] == NatToString(hours)[0];
      t
    else
      var days := diff / 86400;
      var t := NatToString(days) + " day" + Plural(days) + " ago";
      assert t[0] == NatToString(days)[0];
      t
  }

  datatype TimeUnit = Minutes | Hours | Days

  function Seconds(u: TimeUnit): nat {
    match u
    case Minutes => 60
    case Hours => 3600
    case Days => 86400
  }

  /** What a label says: "Just now", or a count of some unit. */
  datatype RelativeTime = JustNow | Ago(count: nat, unit: TimeUnit)

  /** Length of the run of digits `s` starts with. */
  function DigitRun(s: string): (n: nat)
    ensures n <= |s| && AllDigits(s[..n])
    ensures n < |s| ==> !IsDigit(s[n])
    decreases |s|
  {
    if |s| == 0 || !IsDigit(s[0]) then 0
    else
      var n := 1 + DigitRun(s[1..]);
      assert s[..n] == [s[0]] + s[1..][..n - 1];
      n
  }

  /** Reads a label back, accepting both the singular and the plural form. */
  function ParseRelative(s: string): Option<RelativeTime> {
    if s == "Just now" then Some(JustNow)
    else
      var n := DigitRun(s);
      var count := ParseDigits(s[..n]);
      var rest := s[n..];
      if n == 0 then None
      else if rest == " minute ago" || rest == " minutes ago" then Some(Ago(count, Minutes))
      else if rest == " hour ago" || rest == " hours ago" then Some(Ago(count, Hours))
      else if rest == " day ago" || rest == " days ago" then Some(Ago(count, Days))
      else None
  }

  /** The digits of a number followed by a space are read back as that number. */
  lemma DigitRunOfNumber(n: nat, rest: string)
    requires |rest| > 0 && rest[0] == ' '
    ensures var s := NatToString(n) + rest;
      DigitRun(s) == |NatToString(n)| && s[..DigitRun(s)] == NatToString(n) && s[DigitRun(s)..] == rest
  {
    var d := NatToString(n);
    DigitRunPrefix(d, rest);
  }

  lemma {:induction false} DigitRunPrefix(d: string, rest: string)
    requires AllDigits(d) && |rest| > 0 && !IsDigit(rest[0])
    ensures DigitRun(d + rest) == |d|
    decreases |d|
  {
    if |d| > 0 {
      assert (d + rest)[1..] == d[1..] + rest;
      DigitRunPrefix(d[1..], rest);
    } else {
      assert d + rest == rest;
    }
  }

  /** The word naming a unit in a label. */
  function UnitWord(u: TimeUnit): string {
    match u
    case Minutes => " minute"
    case Hours => " hour"
    case Days => " day"
  }

  /** A label of the form "<n> <unit>[s] ago" reads back as that count and unit,
      and it ends in "s ago" exactly when the count is not one. */
  lemma AgoLabelParses(n: nat, u: TimeUnit)
    ensures var t := NatToString(n) + UnitWord(u) + Plural(n) + " ago";
      && t != "Just now"
      && ParseRelative(t) == Some(Ago(n, u))
      && (t[|t| - 5..] == "s ago" <==> n != 1)
  {
    var rest := UnitWord(u) + Plural(n) + " ago";
    var t := NatToString(n) + rest;
    assert t == NatToString(n) + UnitWord(u) + Plural(n) + " ago";
    AgoLabelNotJustNow(n, rest);
    AgoLabelSplits(n, rest);
    AgoSuffixParses(n, u);
    AgoLabelPlural(n, u);
  }

  lemma AgoLabelNotJustNow(n: nat, rest: string)
    ensures NatToString(n) + rest != "Just now"
  {
    var t := NatToString(n) + rest;
    assert IsDigit(t[0]) by { assert t[0] == NatToString(n)[0]; }
  }

  lemma AgoLabelSplits(n: nat, rest: string)
    requires |rest| > 0 && rest[0] == ' '
    ensures var t := NatToString(n) + rest;
      && DigitRun(t) == |NatToString(n)| > 0
      && ParseDigits(t[..DigitRun(t)]) == n
      && t[DigitRun(t)..] == rest
  {
    DigitRunOfNumber(n, rest);
    NatToStringRoundTrip(n);
  }

  /** The text after the number names the unit. */
  lemma AgoSuffixParses(n: nat, u: TimeUnit)
    ensures var rest := UnitWord(u) + Plural(n) + " ago";
      match u
      case Minutes => rest == " minute ago" || rest == " minutes ago"
      case Hours =>
        && (rest == " hour ago" || rest == " hours ago")
        && rest != " minute ago" && rest != " minutes ago"
      case Days =>
        && (rest == " day ago" || rest == " days ago")
        && rest != " minute ago" && rest != " minutes ago"
        && rest != " hour ago" && rest != " hours ago"
  {
    var rest := UnitWord(u) + Plural(n) + " ago";
    assert rest[1] == UnitWord(u)[1];
  }

  lemma AgoLabelPlural(n: nat, u: TimeUnit)
    ensures var t := NatToString(n) + UnitWord(u) + Plural(n) + " ago";
      t[|t| - 5..] == "s ago" <==> n != 1
  {
    PluralSuffix(NatToString(n), n, u);
  }

  /** Whatever precedes the unit word, the label ends in "s ago" exactly
      when the count is not one. */
  lemma PluralSuffix(p: string, n: nat, u: TimeUnit)
    ensures var t := p + UnitWord(u) + Plural(n) + " ago";
      t[|t| - 5..] == "s ago" <==> n != 1
  {
    var w := UnitWord(u) + Plural(n);
    var t := p + UnitWord(u) + Plural(n) + " ago";
    assert t == (p + w) + " ago";
    assert t[|t| - 5..] == [w[|w| - 1]] + " ago";
    if n == 1 {
      assert w == UnitWord(u);
      assert t[|t| - 5..][0] == w[|w| - 1] != 's';
    } else {
      assert w[|w| - 1] == 's';
    }
  }

  function Reading(timestamp: nat, now: nat): RelativeTime {
    var diff := Elapsed(timestamp, now);
    if diff < 30 then JustNow
    else if diff < 3600 then Ago(diff / 60, Minutes)
    else if diff < 86400 then Ago(diff / 3600, Hours)
    else Ago(diff / 86400, Days)
  }

  lemma FormatIsReading(timestamp: nat, now: nat)
    ensures var r := Reading(timestamp, now);
      FormatTimestamp(timestamp, now) ==
        match r
        case JustNow => "Just now"
        case Ago(n, u) => NatToString(n) + UnitWord(u) + Plural(n) + " ago"
  {
  }

  /** Every label reads back, and says how long ago the timestamp was: Just now
      exactly for under 30 seconds (and for a timestamp in the future), else
      the whole number of minutes below an hour, of hours below a day, and of
      days beyond. */
  lemma FormatTimestampMeaning(timestamp: nat, now: nat)
    ensures var diff := Elapsed(timestamp, now);
      match ParseRelative(FormatTimestamp(timestamp, now))
      case None => false
      case Some(JustNow) => diff < 30
      case Some(Ago(n, u)) =>
        && 30 <= diff
        && n * Seconds(u) <= diff < (n + 1) * Seconds(u)
        && (u == Minutes <==> diff < 3600)
        && (u == Days <==> diff >= 86400)
  {
    FormatIsReading(timestamp, now);
    var diff := Elapsed(timestamp, now);
    match Reading(timestamp, now)
    case JustNow =>
    case Ago(n, u) =>
      AgoLabelParses(n, u);
      assert n == diff / Seconds(u);
      QuotientBounds(diff, Seconds(u));
  }

  lemma QuotientBounds(x: nat, d: nat)
    requires d > 0
    ensures (x / d) * d <= x < (x / d + 1) * d
  {
  }

  /** A timestamp in the future shows as "Just now". */
  lemma FutureIsJustNow(timestamp: nat, now: nat)
    requires timestamp > now
    ensures FormatTimestamp(timestamp, now) == "Just now"
  {
  }

  /** The unit is plural exactly when the count is not one. */
  lemma PluralIffNotOne(timestamp: nat, now: nat)
    requires Elapsed(timestamp, now) >= 30
    ensures var text := FormatTimestamp(timestamp, now);
      match ParseRelative(text)
      case Some(Ago(n, u)) => (text[|text| - 5..] == "s ago" <==> n != 1)
      case _ => false
  {
    FormatIsReading(timestamp, now);
    var r := Reading(timestamp, now);
    AgoLabelParses(r.count, r.unit);
  }

  /** Between 30 and 59 seconds the text counts zero minutes. */
  lemma ZeroMinutesWindow(timestamp: nat, now: nat)
    requires 30 <= Elapsed(timestamp, now) < 60
    ensures FormatTimestamp(timestamp, now) == "0 minutes ago"
  {
  }

  // ---------------------------------------------------------------------
  // List rows, placeholder and insertion

  datatype Row = Placeholder | ItemRow(preview: ClipboardItemPreview)

  /** The list as built from the prefetched history: one row per item, or a
      single placeholder row when there is none. */
  function InitialRows(items: seq<ClipboardItemPreview>): (rows: seq<Row>)
    ensures |items| == 0 ==> rows == [Placeholder]
    ensures |items| > 0 ==>
      (|rows| == |items| && forall i :: 0 <= i < |items| ==> rows[i] == ItemRow(items[i]))
  {
    if |items| == 0 then [Placeholder]
    else seq(|items|, i requires 0 <= i < |items| => ItemRow(items[i]))
  }

  /** The overlay's list: its rows and the selected row index. */
  datatype ListView = ListView(rows: seq<Row>, selected: Option<nat>)

  /** A placeholder, if present, is the only row. */
  ghost predicate PlaceholderAlone(rows: seq<Row>) {
    forall i :: 0 <= i < |rows| && rows[i].Placeholder? ==> |rows| == 1
  }

  /** `overlay_add_item(item)`: drop a leading placeholder, insert the new
      row at the top and select it. Nothing happens while no list exists. */
  function OverlayAddItem(view: Option<ListView>, item: ClipboardItemPreview): (r: Option<ListView>)
    ensures view.None? <==> r.None?
    ensures r.Some? ==>
      var rows := view.value.rows;
      var kept := if |rows| > 0 && rows[0].Placeholder? then rows[1..] else rows;
      && |r.value.rows| == |kept| + 1
      && r.value.rows[0] == ItemRow(item)
      && r.value.rows[1..] == kept
      && r.value.selected == Some(0)
  {
    match view
    case None => None
    case Some(v) =>
      var kept := if |v.rows| > 0 && v.rows[0].Placeholder? then v.rows[1..] else v.rows;
      Some(ListView([ItemRow(item)] + kept, Some(0)))
  }

  /** Starting from the built list, inserted rows leave no placeholder behind. */
  lemma AddItemRemovesPlaceholder(items: seq<ClipboardItemPreview>, item: ClipboardItemPreview)
    ensures var r := OverlayAddItem(Some(ListView(InitialRows(items), None)), item).value;
      forall i :: 0 <= i < |r.rows| ==> r.rows[i].ItemRow?
  {
  }

  lemma AddItemKeepsPlaceholderAlone(view: ListView, item: ClipboardItemPreview)
    requires PlaceholderAlone(view.rows)
    ensures var r := OverlayAddItem(Some(view), item).value;
      forall i :: 0 <= i < |r.rows| ==> r.rows[i].ItemRow?
  {
    var r := OverlayAddItem(Some(view), item).value;
    if |view.rows| > 0 && view.rows[0].Placeholder? {
      assert r.rows == [ItemRow(item)];
    } else {
      forall i | 0 < i < |r.rows| ensures r.rows[i].ItemRow? {
        assert r.rows[i] == view.rows[i - 1];
      }
    }
  }

  // ---------------------------------------------------------------------
  // Keyboard navigation

  /** j / J / Down: move to the next row if it exists; with nothing selected,
      select the first row if there is one. */
  function SelectNext(selected: Option<nat>, rowCount: nat): (r: Option<nat>)
    ensures selected.None? ==> r == (if rowCount > 0 then Some(0) else None)
    ensures selected.Some? ==> r.Some? && selected.value <= r.value <= selected.value + 1
    ensures selected.Some? ==> (r.value == selected.value + 1 <==> selected.value + 1 < rowCount)
  {
    match selected
    case None => if rowCount > 0 then Some(0) else None
    case Some(i) => if i + 1 < rowCount then Some(i + 1) else Some(i)
  }

  /** k / K / Up: move to the previous row when not on the first; with nothing
      selected, select the first row if there is one. */
  function SelectPrev(selected: Option<nat>, rowCount: nat): (r: Option<nat>)
    ensures selected.None? ==> r == (if rowCount > 0 then Some(0) else None)
    ensures selected.Some? ==> r.Some? && selected.value - 1 <= r.value <= selected.value
    ensures selected.Some? ==> (r.value + 1 == selected.value <==> 0 < selected.value <= rowCount)
  {
    match selected
    case None => if rowCount > 0 then Some(0) else None
    case Some(i) => if i > 0 && i - 1 < rowCount then Some(i - 1) else Some(i)
  }

  predicate InRange(selected: Option<nat>, rowCount: nat) {
    selected.Some? ==> selected.value < rowCount
  }

  /** Navigation never leaves the list. */
  lemma NavigationStaysInRange(selected: Option<nat>, rowCount: nat)
    requires InRange(selected, rowCount)
    ensures InRange(SelectNext(selected, rowCount), rowCount)
    ensures InRange(SelectPrev(selected, rowCount), rowCount)
  {
  }

  /** Down then Up returns to the row it started from, whenever Down moved;
      Up then Down likewise whenever Up moved. */
  lemma NavigationUndo(i: nat, rowCount: nat)
    requires i < rowCount
    ensures i + 1 < rowCount ==> SelectPrev(SelectNext(Some(i), rowCount), rowCount) == Some(i)
    ensures i > 0 ==> SelectNext(SelectPrev(Some(i), rowCount), rowCount) == Some(i)
  {
  }

  // ---------------------------------------------------------------------
  // Activation

  /** The row-activated handler: a row index selects the item at that index
      of the list the overlay was built from; an index past its end (the
      placeholder row) does nothing. Returns the id sent with
      SetClipboardById. */
  function ActivateAsWritten(items: seq<ClipboardItemPreview>, index: nat): (r: Option<nat>)
    ensures r.Some? <==> index < |items|
    ensures r.Some? ==> exists i :: 0 <= i < |items| && items[i].itemId == r.value
  {
    if index < |items| then Some(items[index].itemId) else None
  }

  /** On the list as built, activating a row picks that row's own item, and the
      placeholder picks nothing. */
  lemma ActivationMatchesInitialRows(items: seq<ClipboardItemPreview>, index: nat)
    requires index < |InitialRows(items)|
    ensures match InitialRows(items)[index]
      case Placeholder => ActivateAsWritten(items, index) == None
      case ItemRow(p) => ActivateAsWritten(items, index) == Some(p.itemId)
  {
  }

  /** Once a row has been inserted, the activation list is stale: activating
      the new top row, which the insertion selects, publishes the item that
      used to be first instead of the inserted one. */
  lemma StaleActivationAfterInsert(items: seq<ClipboardItemPreview>, item: ClipboardItemPreview)
    requires |items| > 0 && item.itemId != items[0].itemId
    ensures var v := OverlayAddItem(Some(ListView(InitialRows(items), None)), item).value;
      && v.rows[v.selected.value] == ItemRow(item)
      && ActivateAsWritten(items, v.selected.value) == Some(items[0].itemId)
      && ActivateAsWritten(items, v.selected.value) != Some(item.itemId)
  {
  }

  /** Activation that consults the activated row itself. */
  function ActivateRow(rows: seq<Row>, index: nat): (r: Option<nat>)
    ensures r.Some? <==> index < |rows| && rows[index].ItemRow?
  {
    if index < |rows| && rows[index].ItemRow? then Some(rows[index].preview.itemId) else None
  }

  /** Row activation agrees with the as-written handler on the list as built,
      and after any insertion the selected new row publishes the new item. */
  lemma ActivateRowSpec(items: seq<ClipboardItemPreview>, index: nat, view: ListView, item: ClipboardItemPreview)
    ensures ActivateRow(InitialRows(items), index) == ActivateAsWritten(items, index)
    ensures var v := OverlayAddItem(Some(view), item).value;
      ActivateRow(v.rows, v.selected.value) == Some(item.itemId)
  {
  }
}

=== FILE: index_maps.dfy ===
/** The `IndexMap<String, V>` the daemon stores payloads in: an association
    list that keeps insertion order and holds each key at most once. */
module IndexMaps {
  import opened Wrappers

  type IndexMap<V> = seq<(string, V)>

  function Keys<V>(m: IndexMap<V>): (ks: seq<string>)
    ensures |ks| == |m|
    ensures forall i :: 0 <= i < |m| ==> ks[i] == m[i].0
  {
    seq(|m|, i requires 0 <= i < |m| => m[i].0)
  }

  predicate UniqueKeys<V>(m: IndexMap<V>) {
    forall i, j :: 0 <= i < j < |m| ==> m[i].0 != m[j].0
  }

  /** `m.get(k)`: the value stored under `k`, if any. */
  function Get<V>(m: IndexMap<V>, k: string): (r: Option<V>)
    ensures r.Some? <==> k in Keys(m)
    ensures r.Some? ==> exists i :: 0 <= i < |m| && m[i] == (k, r.value)
    decreases |m|
  {
    if |m| == 0 then None
    else if m[0].0 == k then Some(m[0].1)
    else Get(m[1..], k)
  }

  /** `m.insert(k, v)`: replaces the value in place when `k` is present,
      otherwise appends the pair at the end. */
  function Insert<V>(m: IndexMap<V>, k: string, v: V): (r: IndexMap<V>)
    decreases |m|
  {
    if |m| == 0 then [(k, v)]
    else if m[0].0 == k then [(k, v)] + m[1..]
    else [m[0]] + Insert(m[1..], k, v)
  }

  /** Insertion keeps every existing key in place, and grows the map by one
      pair `(k, v)` at the end exactly when `k` was new. */
  lemma {:induction false} InsertShape<V>(m: IndexMap<V>, k: string, v: V)
    ensures k in Keys(m) ==> |Insert(m, k, v)| == |m|
    ensures k !in Keys(m) ==> |Insert(m, k, v)| == |m| + 1 && Insert(m, k, v)[|m|] == (k, v)
    ensures forall i :: 0 <= i < |m| ==> Insert(m, k, v)[i].0 == m[i].0
    decreases |m|
  {
    if |m| > 0 && m[0].0 != k {
      InsertShape(m[1..], k, v);
      assert k in Keys(m) <==> k in Keys(m[1..]) by {
        if k in Keys(m) {
          var t :| 0 <= t < |m| && Keys(m)[t] == k;
          assert Keys(m[1..])[t - 1] == k;
        }
        if k in Keys(m[1..]) {
          var t :| 0 <= t < |m[1..]| && Keys(m[1..])[t] == k;
          assert Keys(m)[t + 1] == k;
        }
      }
    } else if |m| > 0 {
      assert Keys(m)[0] == k;
    }
  }

  /** Insertion only appends `k` to the key order, and only if it was new. */
  lemma InsertKeys<V>(m: IndexMap<V>, k: string, v: V)
    ensures k in Keys(m) ==> Keys(Insert(m, k, v)) == Keys(m)
    ensures k !in Keys(m) ==> Keys(Insert(m, k, v)) == Keys(m) + [k]
  {
    InsertShape(m, k, v);
  }

  /** Insertion stores `v` under `k` and leaves every other key's value alone. */
  lemma {:induction false} InsertGet<V>(m: IndexMap<V>, k: string, v: V, k': string)
    ensures Get(Insert(m, k, v), k') == if k' == k then Some(v) else Get(m, k')
    decreases |m|
  {
    if |m| > 0 && m[0].0 != k {
      InsertGet(m[1..], k, v, k');
      assert Insert(m, k, v)[1..] == Insert(m[1..], k, v);
    }
  }

  /** Insertion keeps the keys unique. */
  lemma InsertUnique<V>(m: IndexMap<V>, k: string, v: V)
    requires UniqueKeys(m)
    ensures UniqueKeys(Insert(m, k, v))
  {
    var r := Insert(m, k, v);
    InsertKeys(m, k, v);
    forall i, j | 0 <= i < j < |r| ensures r[i].0 != r[j].0 {
      assert Keys(r)[i] == r[i].0 && Keys(r)[j] == r[j].0;
      if k !in Keys(m) && j == |m| {
        assert Keys(r)[i] == Keys(m)[i];
      }
    }
  }
}

=== FILE: ipc_server.dfy ===
/** The IPC side of the daemon: the broadcast registry of per-connection
    senders and the request loop of one connection. A sender is an id and
    whether its receiving end is still open (a send to a closed channel
    fails); a connection's input is the sequence of lines it delivers,
    each either a well-formed request or a line that does not parse. */
module IpcServer {
  import opened Wrappers
  import opened Seqs
  import opened DataStructures
  import BS = BackendState

  datatype Sender = Sender(id: nat, alive: bool)
  datatype Delivery = Delivery(to: nat, message: BackendMessage)

  /** The registry left after a broadcast and the messages it delivered. */
  datatype Fanout = Fanout(kept: seq<Sender>, delivered: seq<Delivery>)

  /** `register_push_sender(tx)` */
  function RegisterPushSender(registry: seq<Sender>, tx: Sender): (r: seq<Sender>)
    ensures |r| == |registry| + 1 && r[..|registry|] == registry && r[|registry|] == tx
  {
    registry + [tx]
  }

  /** How many senders in the registry are still open. */
  function LiveCount(registry: seq<Sender>): nat
    decreases |registry|
  {
    if |registry| == 0 then 0 else (if registry[0].alive then 1 else 0) + LiveCount(registry[1..])
  }

  /** `send(message)`: offer a clone to every registered sender in order and
      retain only those whose send succeeded. */
  function Broadcast(registry: seq<Sender>, message: BackendMessage): (r: Fanout)
    ensures IsSubsequence(r.kept, registry)
    ensures forall i :: 0 <= i < |r.kept| ==> r.kept[i].alive
    ensures forall i :: 0 <= i < |registry| && registry[i].alive ==> registry[i] in r.kept
    ensures |r.kept| == LiveCount(registry)
    ensures |r.delivered| == |r.kept|
    ensures forall j :: 0 <= j < |r.delivered| ==> r.delivered[j] == Delivery(r.kept[j].id, message)
    decreases |registry|
  {
    if |registry| == 0 then Fanout([], [])
    else
      var rest := Broadcast(registry[1..], message);
      if registry[0].alive then
        Fanout([registry[0]] + rest.kept, [Delivery(registry[0].id, message)] + rest.delivered)
      else rest
  }

  /** How many deliveries went to `id`. */
  function DeliveriesTo(ds: seq<Delivery>, id: nat): nat
    decreases |ds|
  {
    if |ds| == 0 then 0 else (if ds[0].to == id then 1 else 0) + DeliveriesTo(ds[1..], id)
  }

  /** How many live senders the registry holds under `id`. */
  function LiveSenders(registry: seq<Sender>, id: nat): nat
    decreases |registry|
  {
    if |registry| == 0 then 0
    else (if registry[0].id == id && registry[0].alive then 1 else 0) + LiveSenders(registry[1..], id)
  }

  /** Each live sender receives the message once per broadcast and a closed
      one never does: with one sender per id, a live id gets exactly one
      delivery and a dead one none. */
  lemma {:induction false} BroadcastOncePerLiveSender(registry: seq<Sender>, message: BackendMessage, id: nat)
    ensures DeliveriesTo(Broadcast(registry, message).delivered, id) == LiveSenders(registry, id)
    decreases |registry|
  {
    if |registry| > 0 {
      BroadcastOncePerLiveSender(registry[1..], message, id);
      var rest := Broadcast(registry[1..], message);
      if registry[0].alive {
        assert ([Delivery(registry[0].id, message)] + rest.delivered)[1..] == rest.delivered;
      }
    }
  }

  /** Closed senders are gone after one broadcast, so a second broadcast
      keeps the registry as it is. */
  lemma {:induction false} BroadcastSettles(registry: seq<Sender>, m1: BackendMessage, m2: BackendMessage)
    ensures Broadcast(Broadcast(registry, m1).kept, m2).kept == Broadcast(registry, m1).kept
    decreases |registry|
  {
    if |registry| > 0 {
      BroadcastSettles(registry[1..], m1, m2);
      var kept := Broadcast(registry, m1).kept;
      if registry[0].alive {
        assert kept[1..] == Broadcast(registry[1..], m1).kept;
      }
    }
  }

  /** The effect of one request on the shared state, its reply, and the
      protocol requests it issued. */
  datatype Handled = Handled(state: BS.State, response: BackendMessage, requests: seq<BS.Request>)

  /** The request match of `handle_client`. */
  function HandleRequest(s: BS.State, message: FrontendMessage): (r: Handled)
    ensures message.GetHistory? ==> r == Handled(s, History(BS.GetHistory(s)), [])
    ensures message.ClearHistory? ==> r.response == HistoryCleared && r.state == BS.ClearHistory(s)
    ensures message.SetClipboardById? ==>
      match BS.SetClipboardById(s, message.id)
      case Ok(p) => r == Handled(p.state, ClipboardSet, p.requests)
      case Err(e) => r == Handled(s, Error(e), [])
  {
    match message
    case GetHistory => Handled(s, History(BS.GetHistory(s)), [])
    case SetClipboardById(id) =>
      (match BS.SetClipboardById(s, id)
       case Ok(p) => Handled(p.state, ClipboardSet, p.requests)
       case Err(e) => Handled(s, Error(e), []))
    case ClearHistory => Handled(BS.ClearHistory(s), HistoryCleared, [])
  }

  /** No request broadcasts anything: the outbox is untouched. */
  lemma RequestsDoNotBroadcast(s: BS.State, message: FrontendMessage)
    ensures HandleRequest(s, message).state.outbox == s.outbox
  {
  }

  /** Asking for an id that is not in the history answers the not-found
      error naming that id, and changes nothing. */
  lemma UnknownIdAnswersError(s: BS.State, id: nat)
    requires forall i :: 0 <= i < |s.history| ==> s.history[i].itemId != id
    ensures HandleRequest(s, SetClipboardById(id)) == Handled(s, Error(BS.NotFoundMessage(id)), [])
  {
  }

  /** After ClearHistory the history reads back empty. */
  lemma ClearThenGetHistoryEmpty(s: BS.State)
    ensures var c := HandleRequest(s, ClearHistory).state;
      && HandleRequest(c, GetHistory).response == History([])
      && c.idForNextEntry == s.idForNextEntry
  {
  }

  lemma HandleRequestKeepsValid(s: BS.State, message: FrontendMessage)
    requires BS.Valid(s)
    ensures BS.Valid(HandleRequest(s, message).state)
  {
    if message.SetClipboardById? && BS.SetClipboardById(s, message.id).Ok? {
      BS.SetClipboardByIdKeepsValid(s, message.id);
    }
  }

  /** One line read from a connection. */
  datatype Line = Parsed(message: FrontendMessage) | Malformed

  /** The number of lines served before the first malformed one. */
  function ServedLines(lines: seq<Line>): (n: nat)
    ensures n <= |lines|
    ensures forall i :: 0 <= i < n ==> lines[i].Parsed?
    ensures n < |lines| ==> lines[n].Malformed?
    decreases |lines|
  {
    if |lines| == 0 || lines[0].Malformed? then 0 else 1 + ServedLines(lines[1..])
  }

  /** Reference meaning of serving requests one after another: the state and
      replies after the first `n` requests. */
  function Replay(s: BS.State, lines: seq<Line>, n: nat): (BS.State, seq<BackendMessage>)
    requires n <= |lines| && forall i :: 0 <= i < n ==> lines[i].Parsed?
    decreases n
  {
    if n == 0 then (s, [])
    else
      var prev := Replay(s, lines, n - 1);
      var h := HandleRequest(prev.0, lines[n - 1].message);
      (h.state, prev.1 + [h.response])
  }

  /** The compositor requests the first `n` requests issue, in order. */
  function ReplayRequests(s: BS.State, lines: seq<Line>, n: nat): seq<BS.Request>
    requires n <= |lines| && forall i :: 0 <= i < n ==> lines[i].Parsed?
    decreases n
  {
    if n == 0 then []
    else ReplayRequests(s, lines, n - 1) + HandleRequest(Replay(s, lines, n - 1).0, lines[n - 1].message).requests
  }

  /** `handle_client` after registering the connection's sender: serve each
      line in turn, enqueueing exactly one reply per request, and stop at the
      first line that does not parse. The compositor requests of every
      publish served are passed on in the order they were made. */
  method HandleClient(s: BS.State, registry: seq<Sender>, tx: Sender, lines: seq<Line>)
    returns (s': BS.State, registry': seq<Sender>, replies: seq<BackendMessage>, requests: seq<BS.Request>)
    ensures registry' == RegisterPushSender(registry, tx)
    ensures |replies| == ServedLines(lines)
    ensures (s', replies) == Replay(s, lines, ServedLines(lines))
    ensures requests == ReplayRequests(s, lines, ServedLines(lines))
  {
    registry' := RegisterPushSender(registry, tx);
    s' := s;
    replies := [];
    requests := [];
    var i := 0;
    while i < |lines| && lines[i].Parsed?
      invariant 0 <= i <= ServedLines(lines)
      invariant |replies| == i
      invariant (s', replies) == Replay(s, lines, i)
      invariant requests == ReplayRequests(s, lines, i)
      decreases |lines| - i
    {
      ReplayStep(s, lines, i);
      var h := HandleRequest(s', lines[i].message);
      s' := h.state;
      replies := replies + [h.response];
      requests := requests + h.requests;
      i := i + 1;
    }
    ServedLinesStops(lines, i);
  }

  /** One more served request extends the replay by its reply and its
      compositor requests. */
  lemma ReplayStep(s: BS.State, lines: seq<Line>, i: nat)
    requires i < |lines| && forall j :: 0 <= j <= i ==> lines[j].Parsed?
    ensures var h := HandleRequest(Replay(s, lines, i).0, lines[i].message);
      && Replay(s, lines, i + 1) == (h.state, Replay(s, lines, i).1 + [h.response])
      && ReplayRequests(s, lines, i + 1) == ReplayRequests(s, lines, i) + h.requests
  {
  }

  lemma {:induction false} ServedLinesStops(lines: seq<Line>, i: nat)
    requires i <= ServedLines(lines)
    requires i == |lines| || lines[i].Malformed?
    ensures i == ServedLines(lines)
  {
  }

  /** The k-th reply answers the k-th request, evaluated in the state the
      earlier requests left behind. */
  lemma {:induction false} ReplayReplies(s: BS.State, lines: seq<Line>, n: nat, k: nat)
    requires n <= |lines| && forall i :: 0 <= i < n ==> lines[i].Parsed?
    requires k < n
    ensures |Replay(s, lines, n).1| == n
    ensures Replay(s, lines, n).1[k] == HandleRequest(Replay(s, lines, k).0, lines[k].message).response
    decreases n
  {
    var prev := Replay(s, lines, n - 1);
    var last := HandleRequest(prev.0, lines[n - 1].message).response;
    var replies := Replay(s, lines, n).1;
    assert replies == prev.1 + [last];
    ReplayLength(s, lines, n - 1);
    if k < n - 1 {
      ReplayReplies(s, lines, n - 1, k);
      assert replies[k] == prev.1[k];
    } else {
      assert replies[k] == last;
    }
  }

  lemma {:induction false} ReplayLength(s: BS.State, lines: seq<Line>, n: nat)
    requires n <= |lines| && forall i :: 0 <= i < n ==> lines[i].Parsed?
    ensures |Replay(s, lines, n).1| == n
    decreases n
  {
    if n > 0 {
      ReplayLength(s, lines, n - 1);
    }
  }
}

=== FILE: seqs.dfy ===
/** Order-preserving selection from a sequence: what `Vec::retain` leaves
    behind and what a filtering loop collects. */
module Seqs {

  /** `a` is `b` with some elements left out and the rest in their order. */
  predicate IsSubsequence<T(==)>(a: seq<T>, b: seq<T>)
    decreases |b|
  {
    if |a| == 0 then true
    else if |b| == 0 then false
    else if a[0] == b[0] then IsSubsequence(a[1..], b[1..])
    else IsSubsequence(a, b[1..])
  }

  /** Every element of a subsequence comes from the sequence. */
  lemma {:induction false} SubsequenceMembers<T>(a: seq<T>, b: seq<T>, x: T)
    requires IsSubsequence(a, b) && x in a
    ensures x in b
    decreases |b|
  {
    if a[0] == b[0] {
      if x != a[0] {
        assert x in a[1..];
        SubsequenceMembers(a[1..], b[1..], x);
      }
    } else {
      SubsequenceMembers(a, b[1..], x);
    }
  }

  /** Extending the sequence keeps a subsequence a subsequence. */
  lemma {:induction false} SubsequenceExtend<T>(a: seq<T>, b: seq<T>, x: T)
    requires IsSubsequence(a, b)
    ensures IsSubsequence(a, b + [x])
    decreases |b|
  {
    if |a| > 0 {
      assert (b + [x])[1..] == b[1..] + [x];
      if a[0] == b[0] {
        SubsequenceExtend(a[1..], b[1..], x);
      } else {
        SubsequenceExtend(a, b[1..], x);
      }
    }
  }

  /** Keeping a new last element keeps the subsequence relation. */
  lemma {:induction false} SubsequenceAppend<T>(a: seq<T>, b: seq<T>, x: T)
    requires IsSubsequence(a, b)
    ensures IsSubsequence(a + [x], b + [x])
    decreases |b|
  {
    if |a| == 0 {
      SubsequenceSingle(b, x);
      assert a + [x] == [x];
    } else {
      assert (a + [x])[0] == a[0] && (a + [x])[1..] == a[1..] + [x];
      assert (b + [x])[0] == b[0] && (b + [x])[1..] == b[1..] + [x];
      if a[0] == b[0] {
        SubsequenceAppend(a[1..], b[1..], x);
      } else {
        SubsequenceAppend(a, b[1..], x);
      }
    }
  }

  lemma {:induction false} SubsequenceSingle<T>(b: seq<T>, x: T)
    ensures IsSubsequence([x], b + [x])
    decreases |b|
  {
    if |b| > 0 {
      assert (b + [x])[1..] == b[1..] + [x];
      SubsequenceSingle(b[1..], x);
    }
  }
}

=== FILE: strings.dfy ===
/** String helpers standing in for the parts of Rust's `str` API the daemon
    uses: `starts_with`, `contains` (substring and char) and decimal
    formatting of unsigned integers with `{}`. */
module Strings {

  /** `s.starts_with(p)` */
  predicate StartsWith(s: string, p: string) {
    |p| <= |s| && s[..|p|] == p
  }

  /** A string cannot start with a pattern whose first character differs. */
  lemma FirstCharBlocksPrefix(s: string, p: string)
    requires |s| > 0 && |p| > 0 && s[0] != p[0]
    ensures !StartsWith(s, p)
  {
  }

  /** `sub` occurs in `s` starting at position `i`. */
  ghost predicate OccursAt(sub: string, s: string, i: int) {
    0 <= i <= |s| - |sub| && s[i..i + |sub|] == sub
  }

  /** Reference meaning of "sub occurs in s". */
  ghost predicate OccursIn(sub: string, s: string) {
    exists i :: OccursAt(sub, s, i)
  }

  /** `s.contains(sub)` for a string pattern, as a left-to-right scan. */
  predicate Contains(s: string, sub: string)
    decreases |s|
  {
    if StartsWith(s, sub) then true
    else if |s| == 0 then false
    else Contains(s[1..], sub)
  }

  /** The scan agrees with the reference meaning in both directions. */
  lemma {:induction false} ContainsIff(s: string, sub: string)
    ensures Contains(s, sub) <==> OccursIn(sub, s)
    decreases |s|
  {
    if StartsWith(s, sub) {
      assert OccursAt(sub, s, 0);
    } else if |s| == 0 {
    } else {
      ContainsIff(s[1..], sub);
      if OccursIn(sub, s[1..]) {
        var i :| OccursAt(sub, s[1..], i);
        forall k | 0 <= k < |sub|
          ensures s[i + 1..i + 1 + |sub|][k] == sub[k]
        {
          assert s[1..][i..i + |sub|][k] == sub[k];
        }
        assert s[i + 1..i + 1 + |sub|] == sub;
        assert OccursAt(sub, s, i + 1);
      }
      if OccursIn(sub, s) {
        var i :| OccursAt(sub, s, i);
        if i > 0 {
          assert s[1..][i - 1..i - 1 + |sub|] == s[i..i + |sub|];
          assert OccursAt(sub, s[1..], i - 1);
        }
      }
    }
  }

  /** A pattern can only be found where all of its characters occur. */
  lemma ContainsNeedsChar(s: string, sub: string, ch: char)
    requires Contains(s, sub) && ch in sub
    ensures ch in s
  {
    ContainsIff(s, sub);
    var i :| OccursAt(sub, s, i);
    var k :| 0 <= k < |sub| && sub[k] == ch;
    assert s[i..i + |sub|][k] == ch;
  }

  predicate IsDigit(c: char) {
    '0' <= c <= '9'
  }

  predicate AllDigits(s: string) {
    forall i :: 0 <= i < |s| ==> IsDigit(s[i])
  }

  function DigitChar(d: nat): (c: char)
    requires d < 10
    ensures IsDigit(c) && c as int - '0' as int == d
  {
    "0123456789"[d]
  }

  /** Decimal rendering of an unsigned integer, as `format!("{}", n)`. */
  function NatToString(n: nat): (r: string)
    ensures 1 <= |r| && AllDigits(r)
    ensures r[0] == '0' <==> n == 0
    decreases n
  {
    if n < 10 then [DigitChar(n)] else NatToString(n / 10) + [DigitChar(n % 10)]
  }

  /** Reads a string of decimal digits back as a number. */
  function ParseDigits(s: string): nat
    requires AllDigits(s)
    decreases |s|
  {
    if |s| == 0 then 0
    else ParseDigits(s[..|s| - 1]) * 10 + (s[|s| - 1] as int - '0' as int)
  }

  /** Decimal rendering loses nothing: reading it back gives the number. */
  lemma {:induction false} NatToStringRoundTrip(n: nat)
    ensures ParseDigits(NatToString(n)) == n
    decreases n
  {
    var r := NatToString(n);
    if n >= 10 {
      NatToStringRoundTrip(n / 10);
      assert r[..|r| - 1] == NatToString(n / 10);
    }
  }

  /** Distinct numbers render as distinct strings. */
  lemma NatToStringInjective(m: nat, n: nat)
    requires NatToString(m) == NatToString(n)
    ensures m == n
  {
    NatToStringRoundTrip(m);
    NatToStringRoundTrip(n);
  }
}

=== FILE: utf8.dfy ===
/** UTF-8 as Rust's `str` sees it: `s.len()` is the length of the encoding
    in bytes, and `std::str::from_utf8` accepts exactly the well-formed
    encodings (no overlong forms, no surrogates, nothing above U+10FFFF). */
module Utf8 {
  import opened Wrappers

  /** Rust `u8`. */
  type Byte = b: int | 0 <= b < 0x100

  predicate IsContinuation(b: Byte) {
    0x80 <= b < 0xC0
  }

  /** Number of bytes the encoding of `c` takes. */
  function Width(c: char): (w: nat)
    ensures 1 <= w <= 4
  {
    var cp := c as int;
    if cp < 0x80 then 1 else if cp < 0x800 then 2 else if cp < 0x10000 then 3 else 4
  }

  /** The UTF-8 encoding of one scalar value. */
  function EncodeScalar(c: char): (r: seq<Byte>)
    ensures |r| == Width(c)
  {
    var cp := c as int;
    if cp < 0x80 then [cp]
    else if cp < 0x800 then [0xC0 + cp / 0x40, 0x80 + cp % 0x40]
    else if cp < 0x10000 then [0xE0 + cp / 0x1000, 0x80 + (cp / 0x40) % 0x40, 0x80 + cp % 0x40]
    else [0xF0 + cp / 0x40000, 0x80 + (cp / 0x1000) % 0x40, 0x80 + (cp / 0x40) % 0x40, 0x80 + cp % 0x40]
  }

  /** The bytes of a Rust `String` holding `s` (`s.as_bytes()`). */
  function Encode(s: string): seq<Byte>
    decreases |s|
  {
    if |s| == 0 then [] else EncodeScalar(s[0]) + Encode(s[1..])
  }

  /** `s.len()`: the byte length, summed per scalar without building the bytes. */
  function ByteLen(s: string): nat
    decreases |s|
  {
    if |s| == 0 then 0 else Width(s[0]) + ByteLen(s[1..])
  }

  /** The byte length is the length of the encoding, and never less than the
      number of scalar values. */
  lemma {:induction false} ByteLenIsEncodedLength(s: string)
    ensures ByteLen(s) == |Encode(s)|
    ensures |s| <= ByteLen(s) <= 4 * |s|
    decreases |s|
  {
    if |s| > 0 {
      ByteLenIsEncodedLength(s[1..]);
    }
  }

  /** For ASCII text the byte length is the character count. */
  lemma {:induction false} AsciiByteLen(s: string)
    requires forall i :: 0 <= i < |s| ==> s[i] as int < 0x80
    ensures ByteLen(s) == |s|
    decreases |s|
  {
    if |s| > 0 {
      AsciiByteLen(s[1..]);
    }
  }

  /** Decodes the first scalar of `b`, returning it and the number of bytes it
      used, or None when `b` does not start with a well-formed sequence. */
  function DecodeScalar(b: seq<Byte>): (r: Option<(char, nat)>)
    requires |b| > 0
    ensures r.Some? ==> 1 <= r.value.1 <= |b| && r.value.1 <= 4
  {
    var b0: int := b[0];
    if b0 < 0x80 then
      Some((b0 as char, 1))
    else if 0xC2 <= b0 < 0xE0 then
      if |b| < 2 || !IsContinuation(b[1]) then None
      else
        var cp := (b0 - 0xC0) * 0x40 + (b[1] as int - 0x80);
        Some((cp as char, 2))
    else if 0xE0 <= b0 < 0xF0 then
      if |b| < 3 || !IsContinuation(b[1]) || !IsContinuation(b[2]) then None
      else
        var cp := (b0 - 0xE0) * 0x1000 + (b[1] as int - 0x80) * 0x40 + (b[2] as int - 0x80);
        if cp < 0x800 || (0xD800 <= cp < 0xE000) then None
        else Some((cp as char, 3))
    else if 0xF0 <= b0 < 0xF5 then
      if |b| < 4 || !IsContinuation(b[1]) || !IsContinuation(b[2]) || !IsContinuation(b[3]) then None
      else
        var cp := (b0 - 0xF0) * 0x40000 + (b[1] as int - 0x80) * 0x1000
          + (b[2] as int - 0x80) * 0x40 + (b[3] as int - 0x80);
        if cp < 0x10000 || cp > 0x10FFFF then None
        else Some((cp as char, 4))
    else
      None
  }

  /** `std::str::from_utf8`: the scalars `b` encodes, or None if `b` is not
      well-formed UTF-8. */
  function Decode(b: seq<Byte>): Option<string>
    decreases |b|
  {
    if |b| == 0 then Some([])
    else match DecodeScalar(b)
      case None => None
      case Some((c, n)) =>
        match Decode(b[n..])
        case None => None
        case Some(rest) => Some([c] + rest)
  }

  lemma DecodeEncodeTwo(cp: int)
    requires 0x80 <= cp < 0x800
    ensures var q, r := cp / 0x40, cp % 0x40;
      && 0xC2 <= 0xC0 + q < 0xE0 && 0 <= r < 0x40
      && (0xC0 + q - 0xC0) * 0x40 + r == cp
  {
  }

  lemma DecodeEncodeThree(cp: int)
    requires 0x800 <= cp < 0x10000
    ensures var q, m, r := cp / 0x1000, (cp / 0x40) % 0x40, cp % 0x40;
      && 0 <= q < 0x10 && 0 <= m < 0x40 && 0 <= r < 0x40
      && q * 0x1000 + m * 0x40 + r == cp
  {
    var q1 := cp / 0x40;
    assert cp == q1 * 0x40 + cp % 0x40;
    assert q1 / 0x40 == cp / 0x1000;
    assert q1 == (q1 / 0x40) * 0x40 + q1 % 0x40;
  }

  lemma DecodeEncodeFour(cp: int)
    requires 0x10000 <= cp <= 0x10FFFF
    ensures var q, m2, m1, r := cp / 0x40000, (cp / 0x1000) % 0x40, (cp / 0x40) % 0x40, cp % 0x40;
      && 0 <= q < 5 && 0 <= m2 < 0x40 && 0 <= m1 < 0x40 && 0 <= r < 0x40
      && q * 0x40000 + m2 * 0x1000 + m1 * 0x40 + r == cp
  {
    var q1 := cp / 0x40;
    var q2 := cp / 0x1000;
    assert cp == q1 * 0x40 + cp % 0x40;
    assert q1 / 0x40 == q2;
    assert q1 == q2 * 0x40 + q1 % 0x40;
    assert q2 / 0x40 == cp / 0x40000;
    assert q2 == (q2 / 0x40) * 0x40 + q2 % 0x40;
  }

  lemma DecodeEncodeScalar(c: char, rest: seq<Byte>)
    ensures DecodeScalar(EncodeScalar(c) + rest) == Some((c, Width(c)))
  {
    var cp := c as int;
    var b := EncodeScalar(c) + rest;
    if cp < 0x80 {
    } else if cp < 0x800 {
      DecodeEncodeTwo(cp);
    } else if cp < 0x10000 {
      DecodeEncodeThree(cp);
    } else {
      DecodeEncodeFour(cp);
    }
  }

  /** Every string survives a trip through its bytes: `from_utf8(s.as_bytes())`
      is `Ok(s)`. */
  lemma {:induction false} DecodeEncode(s: string)
    ensures Decode(Encode(s)) == Some(s)
    decreases |s|
  {
    if |s| > 0 {
      var e := Encode(s);
      DecodeEncodeScalar(s[0], Encode(s[1..]));
      assert e[Width(s[0])..] == Encode(s[1..]);
      DecodeEncode(s[1..]);
      assert [s[0]] + s[1..] == s;
    }
  }

  lemma EncodeDecodeScalar(b: seq<Byte>)
    requires |b| > 0 && DecodeScalar(b).Some?
    ensures EncodeScalar(DecodeScalar(b).value.0) == b[..DecodeScalar(b).value.1]
  {
    var b0: int := b[0];
    if b0 < 0x80 {
    } else if b0 < 0xE0 {
      var x, y: int := b0 - 0xC0, b[1] as int - 0x80;
      var cp := x * 0x40 + y;
      assert cp / 0x40 == x && cp % 0x40 == y;
    } else if b0 < 0xF0 {
      var x, y, z: int := b0 - 0xE0, b[1] as int - 0x80, b[2] as int - 0x80;
      var cp := x * 0x1000 + y * 0x40 + z;
      assert cp / 0x40 == x * 0x40 + y && cp % 0x40 == z;
      assert cp / 0x1000 == (x * 0x40 + y) / 0x40 == x;
      assert (cp / 0x40) % 0x40 == y;
    } else {
      var w, x, y, z: int := b0 - 0xF0, b[1] as int - 0x80, b[2] as int - 0x80, b[3] as int - 0x80;
      var cp := w * 0x40000 + x * 0x1000 + y * 0x40 + z;
      assert cp / 0x40 == w * 0x1000 + x * 0x40 + y && cp % 0x40 == z;
      assert cp / 0x1000 == (w * 0x1000 + x * 0x40 + y) / 0x40 == w * 0x40 + x;
      assert cp / 0x40000 == (w * 0x40 + x) / 0x40 == w;
      assert (cp / 0x1000) % 0x40 == x;
      assert (cp / 0x40) % 0x40 == y;
    }
  }

  /** Conversely, whatever `from_utf8` accepts is exactly the encoding of the
      string it returns, so the decoder accepts nothing but well-formed
      encodings. */
  lemma {:induction false} EncodeDecode(b: seq<Byte>)
    requires Decode(b).Some?
    ensures Encode(Decode(b).value) == b
    decreases |b|
  {
    if |b| > 0 {
      var (c, n) := DecodeScalar(b).value;
      EncodeDecodeScalar(b);
      EncodeDecode(b[n..]);
      var s := Decode(b).value;
      assert s[0] == c && s[1..] == Decode(b[n..]).value;
      assert b == b[..n] + b[n..];
    }
  }
}

=== FILE: wayland_clipboard.dfy ===
/** The selection state machine: the handlers the Wayland dispatch loop runs
    for data-control device, offer and source events, and the payload
    collection of `process_all_data_formats`. Every handler is a pure
    transition of `BackendState.State` that also returns the protocol
    requests it issues. Reading an offer's payload through pipes is an
    oracle giving, for each position of the announced MIME list, the bytes
    that read produced, None when the pipe could not be opened or the read
    failed. Each read has its own outcome, so a MIME type announced twice is
    read twice and the two reads may differ. */
module WaylandClipboard {
  import opened Wrappers
  import opened Utf8
  import opened IndexMaps
  import opened Seqs
  import opened BackendState

  /** `read(i)`: what reading the i-th announced MIME type yields. */
  type PipeRead = nat -> Option<seq<Byte>>

  datatype DeviceEvent = DataOffer(offer: Handle) | Selection(selected: Option<Handle>) | PrimarySelection
  datatype OfferEvent = Offer(offer: Handle, mimeType: string)
  datatype SourceEvent = Send(source: Handle, mimeType: string) | Cancelled(source: Handle)

  datatype Dispatched = Dispatched(state: State, requests: seq<Request>)

  /** Whether a read produced something worth storing. */
  predicate Kept(r: Option<seq<Byte>>) {
    r.Some? && |r.value| > 0
  }

  /** Some read of the list produced bytes. */
  predicate AnyKept(mimes: seq<string>, read: PipeRead) {
    exists i :: 0 <= i < |mimes| && Kept(read(i))
  }

  /** Position `i` holds the last read of MIME type `k` that produced bytes. */
  ghost predicate LastKeptAt(mimes: seq<string>, read: PipeRead, k: string, i: nat) {
    && i < |mimes| && mimes[i] == k && Kept(read(i))
    && forall j :: i < j < |mimes| && mimes[j] == k ==> !Kept(read(j))
  }

  /** The MIME -> bytes map `process_all_data_formats` gathers: one read per
      announced MIME type in order, failed and empty reads dropped, a later
      read of a repeated type replacing the earlier bytes in place. */
  function CollectPayloads(mimes: seq<string>, read: PipeRead): (r: IndexMap<seq<Byte>>)
    ensures UniqueKeys(r)
    ensures forall k :: k in Keys(r) ==> k in mimes
    decreases |mimes|
  {
    if |mimes| == 0 then []
    else
      var n := |mimes| - 1;
      var acc := CollectPayloads(mimes[..n], read);
      if Kept(read(n)) then
        InsertUnique(acc, mimes[n], read(n).value);
        InsertKeys(acc, mimes[n], read(n).value);
        Insert(acc, mimes[n], read(n).value)
      else acc
  }

  /** The collected keys are drawn from the announced list in its order (a
      subsequence of it), and a MIME type is present exactly when some read of
      it gave bytes; each maps to the bytes of its last such read. */
  lemma {:induction false} CollectPayloadsSpec(mimes: seq<string>, read: PipeRead)
    ensures IsSubsequence(Keys(CollectPayloads(mimes, read)), mimes)
    ensures forall k :: (Get(CollectPayloads(mimes, read), k).None?
      <==> forall i :: 0 <= i < |mimes| && mimes[i] == k ==> !Kept(read(i)))
    ensures forall k, i :: LastKeptAt(mimes, read, k, i) ==> Get(CollectPayloads(mimes, read), k) == read(i)
    decreases |mimes|
  {
    var r := CollectPayloads(mimes, read);
    if |mimes| > 0 {
      var n := |mimes| - 1;
      var init := mimes[..n];
      var mime := mimes[n];
      var acc := CollectPayloads(init, read);
      CollectPayloadsSpec(init, read);
      assert mimes == init + [mime];
      assert forall i :: 0 <= i < n ==> init[i] == mimes[i];
      if Kept(read(n)) {
        InsertKeys(acc, mime, read(n).value);
        forall k ensures Get(r, k) == if k == mime then read(n) else Get(acc, k) {
          InsertGet(acc, mime, read(n).value, k);
        }
        forall k, i | LastKeptAt(mimes, read, k, i) ensures Get(r, k) == read(i) {
          if k != mime {
            assert LastKeptAt(init, read, k, i);
          }
        }
        if mime in Keys(acc) {
          SubsequenceExtend(Keys(acc), init, mime);
        } else {
          SubsequenceAppend(Keys(acc), init, mime);
        }
      } else {
        forall k, i | LastKeptAt(mimes, read, k, i) ensures Get(r, k) == read(i) {
          assert LastKeptAt(init, read, k, i);
        }
        SubsequenceExtend(Keys(acc), init, mime);
      }
    }
  }

  /** Payload collection yields something exactly when some read gave bytes. */
  lemma CollectNonEmptyIff(mimes: seq<string>, read: PipeRead)
    ensures |CollectPayloads(mimes, read)| > 0 <==> AnyKept(mimes, read)
  {
    CollectPayloadsSpec(mimes, read);
    var m := CollectPayloads(mimes, read);
    if |m| > 0 {
      var k := Keys(m)[0];
      assert Get(m, k).Some?;
    }
    if AnyKept(mimes, read) {
      var i :| 0 <= i < |mimes| && Kept(read(i));
      assert Get(m, mimes[i]).Some?;
    }
  }

  /** `process_all_data_formats`: collect the payload, store it, and unless
      monitoring only (or a publish of our own is pending) take ownership of
      the new item. A failed take-over is logged and ignored. One item holding
      the collected map is stored exactly when some read gave bytes; otherwise
      nothing happens. The offer table and current offer are never touched. */
  function ProcessAllDataFormats(s: State, mimes: seq<string>, read: PipeRead, now: nat): (r: Dispatched)
    ensures !AnyKept(mimes, read) ==> r == Dispatched(s, [])
    ensures AnyKept(mimes, read) ==>
      && r.state.idForNextEntry == s.idForNextEntry + 1
      && |r.state.history| > 0
      && r.state.history[0].itemId == s.idForNextEntry
      && r.state.history[0].mimeData == CollectPayloads(mimes, read)
    ensures AnyKept(mimes, read) ==>
      var a := AddClipboardItem(s, CollectPayloads(mimes, read), now).0;
      r.state.history == a.history && r.state.outbox == a.outbox
    ensures r.state.mimeTypeOffers == s.mimeTypeOffers
    ensures r.state.currentDataOffer == s.currentDataOffer
    ensures && r.state.monitorOnly == s.monitorOnly && r.state.connection == s.connection
            && r.state.manager == s.manager && r.state.device == s.device && r.state.queue == s.queue
  {
    CollectNonEmptyIff(mimes, read);
    if |mimes| == 0 then Dispatched(s, [])
    else
      var m := CollectPayloads(mimes, read);
      if |m| == 0 then Dispatched(s, [])
      else
        var (s1, id) := AddClipboardItem(s, m, now);
        if !s1.monitorOnly && !s1.suppressNextSelectionRead then
          match SetClipboardById(s1, id.value)
          case Ok(p) => Dispatched(p.state, p.requests)
          case Err(_) => Dispatched(s1, [])
        else Dispatched(s1, [])
  }

  /** Device event `DataOffer`: open an empty MIME list for the new offer. */
  function OnDataOffer(s: State, o: Handle): (r: State)
    ensures o in r.mimeTypeOffers && r.mimeTypeOffers[o] == []
    ensures r.mimeTypeOffers.Keys == s.mimeTypeOffers.Keys + {o}
    ensures forall o' :: o' in s.mimeTypeOffers && o' != o ==> r.mimeTypeOffers[o'] == s.mimeTypeOffers[o']
    ensures r.(mimeTypeOffers := s.mimeTypeOffers) == s
  {
    s.(mimeTypeOffers := s.mimeTypeOffers[o := []])
  }

  predicate IsVideo(mime: string) {
    |mime| >= 5 && mime[..5] == "video"
  }

  /** Offer event `Offer`: record one more MIME type for a known offer,
      dropping video types. */
  function OnOffer(s: State, o: Handle, mime: string): (r: State)
    ensures r.(mimeTypeOffers := s.mimeTypeOffers) == s
    ensures r.mimeTypeOffers.Keys == s.mimeTypeOffers.Keys
    ensures r != s <==> o in s.mimeTypeOffers && !IsVideo(mime)
    ensures r != s ==> r.mimeTypeOffers[o] == s.mimeTypeOffers[o] + [mime]
    ensures forall o' :: o' in s.mimeTypeOffers && o' != o ==> r.mimeTypeOffers[o'] == s.mimeTypeOffers[o']
  {
    if o in s.mimeTypeOffers && !IsVideo(mime) then
      var r := s.(mimeTypeOffers := s.mimeTypeOffers[o := s.mimeTypeOffers[o] + [mime]]);
      assert r.mimeTypeOffers[o] != s.mimeTypeOffers[o];
      r
    else s
  }

  /** Device event `Selection`. A cleared selection only forgets the current
      offer. An offer missing from the table, or the current offer named
      again while nothing is pending, is ignored. While a publish of our own
      is pending, the offer is only recorded and destroyed unread, and the
      offer table is kept. Otherwise the new offer becomes current, is read
      and stored (one item exactly when some read gave bytes), the whole offer
      table is dropped and the offer destroyed; the new item is published as
      our own selection exactly when one was stored, monitoring is off and
      the protocol handles are bound. */
  function OnSelection(s: State, id: Option<Handle>, read: PipeRead, now: nat): (r: Dispatched)
    ensures id.None? ==> r == Dispatched(s.(currentDataOffer := None), [])
    ensures id.Some? && (id.value !in s.mimeTypeOffers || (s.currentDataOffer == id && !s.suppressNextSelectionRead)) ==>
      r == Dispatched(s, [])
    ensures id.Some? && id.value in s.mimeTypeOffers && s.suppressNextSelectionRead ==>
      r == Dispatched(s.(currentDataOffer := id), [DestroyOffer(id.value)])
    ensures id.Some? && id.value in s.mimeTypeOffers && !s.suppressNextSelectionRead && s.currentDataOffer != id ==>
      var mimes := s.mimeTypeOffers[id.value];
      && r.state.currentDataOffer == id
      && r.state.mimeTypeOffers == map[]
      && |r.requests| > 0 && r.requests[|r.requests| - 1] == DestroyOffer(id.value)
      && (AnyKept(mimes, read) <==> r.state.idForNextEntry == s.idForNextEntry + 1)
      && (AnyKept(mimes, read) ==> |r.state.history| > 0 && r.state.history[0].mimeData == CollectPayloads(mimes, read))
      && (AnyKept(mimes, read) ==>
            var a := AddClipboardItem(s, CollectPayloads(mimes, read), now).0;
            r.state.history == a.history && r.state.outbox == a.outbox)
      && r.requests == ProcessAllDataFormats(s.(currentDataOffer := id), mimes, read, now).requests + [DestroyOffer(id.value)]
      && (r.state.sourcesCreated == s.sourcesCreated + 1 <==>
            AnyKept(mimes, read) && !s.monitorOnly && s.manager.Some? && s.device.Some? && s.queue.Some?)
      && (r.state.sourcesCreated == s.sourcesCreated + 1 ==>
            && r.state.currentSource == Some(s.sourcesCreated)
            && r.state.currentSourceEntryId == Some(s.idForNextEntry)
            && r.state.suppressNextSelectionRead)
      && (!AnyKept(mimes, read) ==>
            r == Dispatched(s.(currentDataOffer := id, mimeTypeOffers := map[]), [DestroyOffer(id.value)]))
  {
    match id
    case None => Dispatched(s.(currentDataOffer := None), [])
    case Some(o) =>
      var alreadyCurrent := s.currentDataOffer == Some(o);
      if o !in s.mimeTypeOffers then Dispatched(s, [])
      else if s.suppressNextSelectionRead then
        Dispatched(s.(currentDataOffer := Some(o)), [DestroyOffer(o)])
      else if !alreadyCurrent then
        var d := ProcessAllDataFormats(s.(currentDataOffer := Some(o)), s.mimeTypeOffers[o], read, now);
        ProcessPublishesIff(s.(currentDataOffer := Some(o)), s.mimeTypeOffers[o], read, now);
        Dispatched(d.state.(mimeTypeOffers := map[]), d.requests + [DestroyOffer(o)])
      else Dispatched(s, [])
  }

  /** Source event `Send`: the bytes written to the requester's descriptor,
      None when nothing is written (no entry recorded, the entry is gone, or it
      lacks that MIME type). The event's source is not compared with the
      current one: whatever source the request names, the recorded entry's
      bytes for that MIME type are served. */
  function OnSend(s: State, source: Handle, mime: string): (r: Option<seq<Byte>>)
    ensures r.Some? ==>
      && s.currentSourceEntryId.Some?
      && exists i :: 0 <= i < |s.history| && s.history[i].itemId == s.currentSourceEntryId.value
                    && Get(s.history[i].mimeData, mime) == r
    ensures s.currentSourceEntryId.Some? && GetItemById(s, s.currentSourceEntryId.value).Some? ==>
      r == Get(GetItemById(s, s.currentSourceEntryId.value).value.mimeData, mime)
  {
    match s.currentSourceEntryId
    case None => None
    case Some(entry) =>
      match GetItemById(s, entry)
      case None => None
      case Some(item) => Get(item.mimeData, mime)
  }

  /** Source event `Cancelled`: if it is our current source, another client
      took the selection over, so reading is re-enabled. The source object is
      destroyed in every case. */
  function OnCancelled(s: State, source: Handle): (r: Dispatched)
    ensures r.requests == [DestroySource(source)]
    ensures s.currentSource == Some(source) ==>
      r.state == s.(suppressNextSelectionRead := false, currentSource := None)
    ensures s.currentSource != Some(source) ==> r.state == s
    ensures r.state.currentSourceEntryId == s.currentSourceEntryId
  {
    if s.currentSource == Some(source) then
      Dispatched(s.(suppressNextSelectionRead := false, currentSource := None), [DestroySource(source)])
    else
      Dispatched(s, [DestroySource(source)])
  }

  // ---------------------------------------------------------------------
  // Properties of the selection handler

  /** The daemon publishes the stored item (allocating a new source) exactly
      when one was stored, it is not monitoring only, no publish is pending and
      the protocol objects are bound; otherwise the ownership record is as
      before. A publish is `set_clipboard_by_id` on the state the insert left,
      with its requests; a stored item that is not published leaves exactly
      the inserted state and no requests. */
  lemma ProcessPublishesIff(s: State, mimes: seq<string>, read: PipeRead, now: nat)
    ensures var d := ProcessAllDataFormats(s, mimes, read, now);
      var added := AnyKept(mimes, read);
      var ready := s.manager.Some? && s.device.Some? && s.queue.Some?;
      var published := added && !s.monitorOnly && !s.suppressNextSelectionRead && ready;
      && (published ==>
            && d.state.sourcesCreated == s.sourcesCreated + 1
            && d.state.currentSource == Some(s.sourcesCreated)
            && d.state.currentSourceEntryId == Some(s.idForNextEntry)
            && d.state.suppressNextSelectionRead)
      && (!published ==>
            && d.state.sourcesCreated == s.sourcesCreated
            && d.state.currentSource == s.currentSource
            && d.state.currentSourceEntryId == s.currentSourceEntryId
            && d.state.suppressNextSelectionRead == s.suppressNextSelectionRead
            && d.requests == [])
      && (added ==>
            var a := AddClipboardItem(s, CollectPayloads(mimes, read), now).0;
            && (published ==>
                  && SetClipboardById(a, s.idForNextEntry).Ok?
                  && d == Dispatched(SetClipboardById(a, s.idForNextEntry).value.state,
                                     SetClipboardById(a, s.idForNextEntry).value.requests))
            && (!published ==> d == Dispatched(a, [])))
  {
    CollectNonEmptyIff(mimes, read);
    var m := CollectPayloads(mimes, read);
    if |mimes| > 0 && |m| > 0 {
      var (s1, id) := AddClipboardItem(s, m, now);
      assert s1.history[0].itemId == id.value;
      assert GetItemById(s1, id.value).Some?;
      if !s.monitorOnly && !s.suppressNextSelectionRead {
        var r := SetClipboardById(s1, id.value);
        assert r.Ok? <==> s.manager.Some? && s.device.Some? && s.queue.Some?;
      }
    }
  }

  // ---------------------------------------------------------------------
  // Ownership: publish, echo, cancel, serve

  /** After publishing item `id`, a Send for any of its MIME types is served
      with exactly the stored bytes. */
  lemma PublishThenServe(s: State, id: nat, mime: string)
    requires Valid(s) && SetClipboardById(s, id).Ok?
    ensures var s' := SetClipboardById(s, id).value.state;
      && OnSend(s', s'.currentSource.value, mime) == Get(GetItemById(s, id).value.mimeData, mime)
  {
    var s' := SetClipboardById(s, id).value.state;
    assert s'.currentSourceEntryId == Some(id) && s'.history == s.history;
    assert GetItemById(s', id) == GetItemById(s, id);
  }

  /** Publishing again before the old source is cancelled: the late
      Cancelled for the replaced source no longer matches and changes nothing,
      because every publish allocates a fresh handle. */
  lemma StaleCancelIgnored(s: State, id: nat)
    requires Valid(s) && s.currentSource.Some? && SetClipboardById(s, id).Ok?
    ensures var s' := SetClipboardById(s, id).value.state;
      OnCancelled(s', s.currentSource.value).state == s'
  {
  }

  /** Cancelling our current source returns the machine to Unowned, keeping the
      entry id it last served. */
  lemma PublishThenCancel(s: State, id: nat)
    requires SetClipboardById(s, id).Ok?
    ensures var s' := SetClipboardById(s, id).value.state;
      var c := OnCancelled(s', s'.currentSource.value).state;
      && c.currentSource == None && !c.suppressNextSelectionRead
      && c.currentSourceEntryId == Some(id)
      && c.history == s.history
  {
  }

  // ---------------------------------------------------------------------
  // The invariant holds across every handler

  lemma ProcessAllDataFormatsKeepsValid(s: State, mimes: seq<string>, read: PipeRead, now: nat)
    requires Valid(s)
    ensures Valid(ProcessAllDataFormats(s, mimes, read, now).state)
  {
    if |mimes| > 0 {
      var m := CollectPayloads(mimes, read);
      CollectPayloadsSpec(mimes, read);
      if |m| > 0 {
        AddClipboardItemKeepsValid(s, m, now);
        var (s1, id) := AddClipboardItem(s, m, now);
        if !s1.monitorOnly && !s1.suppressNextSelectionRead && SetClipboardById(s1, id.value).Ok? {
          SetClipboardByIdKeepsValid(s1, id.value);
        }
      }
    }
  }

  lemma DeviceEventKeepsValid(s: State, e: DeviceEvent, read: PipeRead, now: nat)
    requires Valid(s)
    ensures e.DataOffer? ==> Valid(OnDataOffer(s, e.offer))
    ensures e.Selection? ==> Valid(OnSelection(s, e.selected, read, now).state)
  {
    if e.Selection? {
      SelectionKeepsValid(s, e.selected, read, now);
    }
  }

  lemma SelectionKeepsValid(s: State, id: Option<Handle>, read: PipeRead, now: nat)
    requires Valid(s)
    ensures Valid(OnSelection(s, id, read, now).state)
  {
    var t := OnSelection(s, id, read, now).state;
    if id.None? {
      assert t == s.(currentDataOffer := None);
      OffersDoNotAffectValid(s, t);
    } else if id.value !in s.mimeTypeOffers {
      assert t == s;
    } else if s.suppressNextSelectionRead {
      assert t == s.(currentDataOffer := id);
      OffersDoNotAffectValid(s, t);
    } else if s.currentDataOffer == id {
      assert t == s;
    } else {
      var s1 := s.(currentDataOffer := id);
      var d := ProcessAllDataFormats(s1, s.mimeTypeOffers[id.value], read, now);
      OffersDoNotAffectValid(s, s1);
      ProcessAllDataFormatsKeepsValid(s1, s.mimeTypeOffers[id.value], read, now);
      assert t == d.state.(mimeTypeOffers := map[]);
      OffersDoNotAffectValid(d.state, t);
    }
  }

  /** The invariant does not look at the offer table or the current offer. */
  lemma OffersDoNotAffectValid(s: State, t: State)
    requires Valid(s)
    requires t.(mimeTypeOffers := s.mimeTypeOffers, currentDataOffer := s.currentDataOffer) == s
    ensures Valid(t)
  {
    assert t.history == s.history;
  }

  lemma OfferEventKeepsValid(s: State, e: OfferEvent)
    requires Valid(s)
    ensures Valid(OnOffer(s, e.offer, e.mimeType))
  {
  }

  lemma SourceEventKeepsValid(s: State, e: SourceEvent)
    requires Valid(s)
    ensures e.Cancelled? ==> Valid(OnCancelled(s, e.source).state)
  {
  }
}

=== FILE: wrappers.dfy ===
/** Rust's `Option` and `Result<T, String>`, as used across the model. */
module Wrappers {

  datatype Option<+T> = None | Some(value: T)

  datatype Result<+R, +E> = Ok(value: R) | Err(error: E)
}
